=== FILE: README.md ===
# yt-notif-bot: a Dafny model of the polling and dispatch core

yt-notif-bot is a Discord bot. It polls YouTube upload playlists and posts one
message per new video to every subscribed channel. This project models its
core and proves properties of the model. The core has three parts:

- **The pipeline of `src/update_loop.rs`.**
  - The workunit builder of `process_playlists` turns the uploads into
    oldest-first order, asks the store which channels are behind on each
    video, and tracks `first_index`.
  - `assign_workunit_extras` remaps each index into the fetched slice.
  - The filter gate sits at the head of `Workunit::send_message`.
  - The reconcile state machine of `do_workunits` / `update_db_entry` sends,
    writes the cursor, deletes the message if the write failed, and queues the
    workunit if the delete failed too.
  - `resync_db` drains that queue in FIFO order.
  - `update_loop` is modelled for one cycle.
- **The rate limiter of `src/rate_limit.rs`.** It is a state transition over
  an integer millisecond clock.
- **The subscription store and timestamp text of `src/db.rs`.** The
  `channels` table becomes a map from (playlist, channel) to the cursor text.
  `into_sqlite` and `from_sqlite` become a renderer and a parser of the
  `YYYY-MM-DD HH:MM:SS` text.

Every call the program makes to the outside world is an input outcome
supplied by the caller:

- `get_playlists`, which `PollOnce` takes as a `Result`;
- `get_uploads_from_playlist`, `get_channels_to_send` and `get_videos_extras`;
- `get_filters`;
- the Discord send and the message delete;
- `update_most_recent`.

So a playlist's run is a pure function from those outcomes to the workunits,
their dispositions and the cursor writes.

Files and modules:

- `outcomes.dfy` (`Outcomes`): `Option` and `Result`.
- `decimal.dfy` (`Decimal`): zero-padded decimal digits and their parser.
- `textorder.dfy` (`TextOrder`): SQLite's BINARY text comparison, which on
  this text is code-point order.
- `timestamp.dfy` (`Timestamp`): the calendar fields of chrono's
  `DateTime<Utc>`, `into_sqlite` and `from_sqlite`, and the agreement of
  text order with chronological order.
- `store.dfy` (`SubscriptionStore`): `add_channel`, `get_playlists`,
  `get_channels_to_send` and cursor writes.
- `ratelimit.dfy` (`RateLimit`): `RateLimiter`.
- `workunits.dfy` (`Workunits`): the data, the filter gate, the builder and
  the remap.
- `dispatch.dfy` (`Dispatch`): `send_message`, `update_db_entry`,
  `do_workunits` and `resync_db`.
- `update_loop.dfy` (`UpdateLoop`): one playlist end to end, one cycle, and
  two scenarios.

Two behaviours of the code deserve a note:

- A subscription's cursor can move backwards. `do_workunits` calls
  `update_most_recent` with each workunit's own publication time, and
  `resync_db` runs after all workunits of the playlist. So a retried older
  timestamp is written after a newer one. `UpdateLoop.RetryRewindsCursor`
  shows this. The body of `update_most_recent` is not part of this model, so
  this is shown as a scenario, not claimed as a defect.
- When there are no playlists, `update_loop` (lines 283-285) continues at
  once, with no pause. `PollOnce` models one turn, in which nothing is
  processed.

## Model

| member | source | states |
|---|---|---|
| `Timestamp.IntoSqlite` | src/db.rs:7-12 | For years 0-9999 the text is the six zero-padded fields joined by `-`, `-`, space, `:`, `:`, which is 19 characters. Other years are signed and at least 20 characters long. |
| `Timestamp.IntoSqliteShape` | src/db.rs:7-12 | For years 0-9999 the text is exactly `YYYY-MM-DD HH:MM:SS`: seconds precision, `T` replaced by a space, no trailing `Z`. |
| `Timestamp.YearText` | src/db.rs:8 | chrono's year: for 0-9999, four digits that parse back to the year. Otherwise a sign then at least four digits that parse back to the absolute value; the sign is `+` exactly for years above 9999. |
| `Timestamp.FromSqlite` | src/db.rs:14-19 | A successful parse has no sub-second part. |
| `Timestamp.RoundTrip` | src/db.rs:7-19 | For years 0-9999, `from_sqlite(into_sqlite(d))` is `d` truncated to whole seconds. For other years the parse fails, where the program would panic in `unwrap`. |
| `Timestamp.TextOrderIsChronological` | src/db.rs:50-56 | For years 0-9999, text `<` on two `into_sqlite` strings holds exactly when the first is an earlier second. The texts are equal exactly when the seconds are equal. |
| `Timestamp.TextOrderIsFieldOrder` | src/db.rs:7-12 | Text `<` on two `into_sqlite` strings is the lexicographic order of (year, month, day, hour, minute, second). Equal texts mean equal fields. |
| `Timestamp.EpochText` | src/db.rs:31 | `into_sqlite(DateTime::default())` is `1970-01-01 00:00:00`. |
| `SubscriptionStore.Enumerate` | src/db.rs:37 | `SELECT DISTINCT` lists every element of the set once and nothing else. |
| `SubscriptionStore.AddChannel` | src/db.rs:21-34 | The insert succeeds exactly when the (playlist, channel) key is absent, since it is the primary key. It adds that one row with cursor `1970-01-01 00:00:00` and leaves every other row unchanged. |
| `SubscriptionStore.GetPlaylists` | src/db.rs:36-43 | Each subscribed playlist is listed exactly once. |
| `SubscriptionStore.GetChannelsToSend` | src/db.rs:45-63 | Exactly the channels subscribed to the playlist whose cursor text is below the publication text, each once. |
| `SubscriptionStore.DueIffCursorEarlier` | src/db.rs:50-56 | A channel is selected exactly when its cursor is an earlier second than the video. A cursor at the same second is not selected. |
| `SubscriptionStore.NewSubscriptionIsDue` | src/db.rs:25-31 | A new subscription is selected for a video exactly when the video is later than 1970-01-01 00:00:00. |
| `SubscriptionStore.WriteCursor` | src/update_loop.rs:210 | A cursor write changes only its own existing row and adds no row. |
| `SubscriptionStore.LastWriteWins` | src/update_loop.rs:210 | After a sequence of writes, a row holds the text of the last write to it, whatever came before. |
| `RateLimit.New` | src/rate_limit.rs:13-18 | The last use is the construction instant. |
| `RateLimit.NewFast` | src/rate_limit.rs:20-26 | The last use is backdated by `time_per`. If that would fall before the clock's origin, it is the construction instant. |
| `RateLimit.SleepFor` | src/rate_limit.rs:30-33 | The sleep never exceeds `time_per`. A call at or after the last use starts at max(now, last + time_per). |
| `RateLimit.UseWith` | src/rate_limit.rs:28-38 | The call starts between now and now + time_per, and at max(now, last + time_per) when now is not before the last use. It returns `f`'s output on the unchanged resource and records the finish instant, not the start. |
| `RateLimit.Serve` | src/rate_limit.rs:28-38 | Calls serialised by the mutex start no earlier than they arrive. Each starts at least `time_per` after the previous one finished, and the first waits out `time_per` from the last use. |
| `RateLimit.ServeSpacing` | src/rate_limit.rs:35-36 | Every later call starts at least `time_per` after every earlier call finished. |
| `RateLimit.ServeChain` | src/rate_limit.rs:28-38 | Call `i + n` starts at least `n * time_per` after call `i` finished. |
| `RateLimit.StartsInOrder` | src/rate_limit.rs:28-38 | Calls start in the order the mutex serves them. |
| `RateLimit.DayApart` | src/main.rs:129-136 | With `TIME_PER_REQUEST` between calls, the call 10 000 places later starts at least one day later. |
| `RateLimit.DailyQuota` | src/main.rs:119-136 | For the YouTube limiter built with `RateLimiter::new(TIME_PER_REQUEST, ..)`, calls that start less than a day apart are fewer than 10 000 places apart. So no day sees more than 10 000 calls start, which is the quota the constant is derived from. |
| `RateLimit.NewWaitsFullPeriod` | src/rate_limit.rs:13-18 | After `new`, a call at construction time waits a full `time_per`. |
| `RateLimit.NewFastFirstCall` | src/rate_limit.rs:20-26 | After `new_fast` the first call does not wait, unless backdating underflowed, in which case it waits in full. |
| `Workunits.Suppressed` | src/update_loop.rs:44-53 | Suppression holds exactly when the workunit is not eligible under the kind-by-kind reading of the filters. Upcoming streams and uploads are suppressed only by the shorts filter. |
| `Workunits.ScheduledPassesKindFilter` | src/update_loop.rs:44-53 | A scheduled workunit can be stopped only by the shorts filter. |
| `Workunits.LeadingSkips` | src/update_loop.rs:109-139 | The final `first_index` is the length of the longest prefix of oldest-first videos whose channel query succeeded with no channel. |
| `Workunits.Pending` | src/update_loop.rs:110-138 | A workunit is produced exactly for each video whose query succeeded and each channel it returned. |
| `Workunits.BuildIndexWorkunits` | src/update_loop.rs:109-139 | The builder loop ends with `first_index` equal to `LeadingSkips`. Its workunits are `Pending`: video by video, in the store's channel order. |
| `Workunits.PushUnits` | src/update_loop.rs:131-137 | The inner loop appends one workunit per channel, in order. |
| `Workunits.PendingChannels` | src/update_loop.rs:111-138 | The workunits for a video list its channels in the order the store returned them. A failed query yields none. |
| `Workunits.PendingOrdered` | src/update_loop.rs:107-138 | Workunits come in oldest-first video order. |
| `Workunits.IndicesInSlice` | src/update_loop.rs:141-174 | Every index is at least `first_index` and below the video count. So `index - first_index` never underflows and lies inside the slice. |
| `Workunits.EmptySliceNoWork` | src/update_loop.rs:141-145 | An empty slice means no workunits exist. |
| `Workunits.FailedQuerySkipsOnlyItsVideo` | src/update_loop.rs:112-122 | A failed query removes only that video's workunits and keeps the video in the slice. Every other video keeps its own channels. |
| `Workunits.Assign` | src/update_loop.rs:171-182 | Each remapped workunit carries the very video the builder indexed, with the extras at the same slice position. |
| `Dispatch.SendMessage` | src/update_loop.rs:34-89 | NONSENSE gives "no message" without reading the filters. Otherwise there is an error exactly when the filter lookup fails, or the workunit is eligible and the send fails. A message is sent exactly when the filters pass and the send succeeds. |
| `Dispatch.UpdateDbEntry` | src/update_loop.rs:204-233 | The decision table. A successful write means done. A failed write with no message means dropped. A failed write whose delete succeeds means retracted. A failed write whose delete fails means queued. |
| `Dispatch.NoUnrecordedMessage` | src/update_loop.rs:210-232 | A message left standing has its cursor written or is queued. The queue holds only workunits whose message stands undeleted. |
| `Dispatch.Dispose` | src/update_loop.rs:189-198 | A send error is the only way to skip the cursor write. NONSENSE goes to the write as "no message". A standing message is the one the send returned. |
| `Dispatch.Dispatched` | src/update_loop.rs:187-199 | Each workunit's disposition depends on its own outcomes only. The retry queue is the queued workunits in dispatch order, each once per occurrence, and the writes are the written workunits' cursor writes in dispatch order. So the queue holds exactly the queued workunits and the writes exactly those of the written ones. |
| `Dispatch.SendErrorSkipsOnlyItsWorkunit` | src/update_loop.rs:189-194 | A workunit whose send fails is `SendFailed`. The batch's other dispositions, its retry queue and its cursor writes are exactly those of the same batch with that workunit removed. |
| `Dispatch.Resync` | src/update_loop.rs:243-268 | Each outcome used writes or fails one entry. The loop stops early only when the queue is empty. |
| `Dispatch.ResyncPermutes` | src/update_loop.rs:250-263 | Written plus still-queued entries are the original queue as a multiset. |
| `Dispatch.ResyncWrittenCount` | src/update_loop.rs:243-263 | The number written is min(queue length, number of successful outcomes). So the queue empties exactly when at least as many writes succeed as entries were queued, and finitely many failures mean termination. |
| `Dispatch.ResyncFifo` | src/update_loop.rs:251-260 | When every write succeeds, entries are written in FIFO order with no failure counted. |
| `Dispatch.ResyncCountsFailures` | src/update_loop.rs:249-260 | `failure_count` equals the number of failed outcomes used. |
| `Dispatch.ResyncDb` | src/update_loop.rs:243-268 | The deque loop computes exactly `Resync`. |
| `Dispatch.DoWorkunits` | src/update_loop.rs:187-202 | The workunit loop followed by `resync_db` computes `Dispatched`, then `Resync` on its queue. |
| `Dispatch.DrainedBatchRecordsEveryMessage` | src/update_loop.rs:198-232 | Once the retry queue drains, every message left standing has its cursor write in the batch. |
| `UpdateLoop.Reverse` | src/update_loop.rs:107 | Oldest-first order is the uploads reversed. |
| `UpdateLoop.ProcessPlaylist` | src/update_loop.rs:93-185 | A fetch failure skips the playlist. An empty slice skips the extras fetch. An extras failure abandons the playlist. Otherwise workunit k has the video and channel the builder indexed, and the extras at its slice position `index - first_index`. The remapped list is dispatched, and the queue is resynced. |
| `UpdateLoop.RemappedWorkunits` | src/update_loop.rs:141-182 | The workunits of a playlist that runs are the builder's, each with the video at its index and the extras at `index - first_index` of the fetched slice. |
| `UpdateLoop.WorkunitCarriesItsExtras` | src/update_loop.rs:141-182 | Workunit k of a playlist carries the extras fetched for its own video: the extras of the slice starting at `first_index`, at position `index - first_index`. |
| `UpdateLoop.RunPlaylist` | src/update_loop.rs:93-185 | The builder loop and the dispatch loop together compute `ProcessPlaylist`. |
| `UpdateLoop.SkippedPlaylistWritesNothing` | src/update_loop.rs:141-168 | A playlist with nothing new has no pending workunit, so skipping it loses no notification. That it makes no cursor write holds because only a `Ran` outcome carries a trace. |
| `UpdateLoop.PendingAreDue` | src/update_loop.rs:111-138 | With the store answering every query, the workunits are exactly the due (video, channel) pairs, oldest video first. |
| `UpdateLoop.ProcessAll` | src/update_loop.rs:94-146 | Playlists are processed in order, each with its own outcomes. |
| `UpdateLoop.PollOnce` | src/update_loop.rs:272-289 | A failed `get_playlists` processes nothing in this turn. Otherwise every playlist is processed in order. |
| `UpdateLoop.TwoVideosPosted` | src/update_loop.rs:187-213 | When every call succeeds, two videos are posted, the cursor ends at the later one, and neither is due again. |
| `UpdateLoop.RetryRewindsCursor` | src/update_loop.rs:198-260 | A queued older workunit is written after a newer one, which leaves the newer video due again. |

## Left out

- Message text, the category-cache lookup and the emoji (src/update_loop.rs:55-79): formatting with no bearing on what is sent to whom.
- The bodies of `get_uploads_from_playlist`, `get_videos_extras`, `get_filters` and `update_most_recent`, the live-state derivation and the short probe. They are not part of this model; their results are inputs.
- Logging with `println!`: it has no effect on state.
- `SubscriptionStore.WriteCursor`: `update_most_recent` is taken as a plain assignment to an existing row, because its SQL is not part of this model. So no cursor monotonicity is claimed.
- `Dispatch.Resync`: the program retries forever until the queue is empty. The model stops when the outcome sequence runs out, and says when that leaves entries queued.
- The 5 ms pause between retries (src/update_loop.rs:262): time is not modelled inside `resync_db`.
- `RateLimit.UseWith`: sleeping is taken to wake exactly on time; a late wake-up only delays the start further. The clock is a natural number of milliseconds whose origin is where `Instant::checked_sub` fails.
- `RateLimit.Serve`: the tokio mutex is taken as granting the lock in arrival order; task spawning and true concurrency are not modelled.
- The infinite `update_loop`: one turn is modelled (`PollOnce`). The busy loop on an empty or failing playlist list is a sequence of such empty turns.
- `UpdateLoop.ProcessPlaylist`: the required shapes of the outcomes are preconditions (`CallsFit`). These are one channel query per video, one set of extras per video of the slice (line 178 indexes them unchecked) and one set of call outcomes per workunit.
- The panic of `.unwrap()` when the `get_channels_to_send` query fails (src/db.rs:59): the store model cannot fail, and a failing query never reaches the `continue` branch at src/update_loop.rs:115. The pipeline's `Err` outcome for a video stands for the only error the function returns: a row whose `channel_id` fails to decode (`s.try_get(0)?`, src/db.rs:61).
- `Timestamp.FromSqlite`: it accepts only the whole-second text that `into_sqlite` writes, with `T`, `t` or a space between date and time. chrono also accepts fractional seconds and a leap second `:60`. The program's panic on a bad text is `None`.
- Leap seconds (chrono's nanosecond field of 1 000 000 000 or more) and years outside 0-9999: for those years only the shape of the `into_sqlite` text is stated, and the order lemmas are limited to four-digit years.
- The SQL engine, the `STRICT` schema and the `CHECK (DATETIME(most_recent) IS most_recent)` constraint (src/main.rs:74-80): the table is a map keyed by its primary key.
- `channel.get() as i64` (src/db.rs:30): channel ids are natural numbers; the wrap of ids of 2^63 and above is not modelled.
- `src/commands.rs`, `src/components.rs`, `src/generate_components.rs`, `src/youtube.rs` and the start-up code of `src/main.rs`: user interface plumbing, an HTTP stub and initialisation.

=== FILE: decimal.dfy ===
/** Decimal digits of natural numbers: the fixed-width, zero-padded fields of
    an RFC 3339 timestamp and their parsing back to numbers. */
module Decimal {

  function Pow10(n: nat): (r: nat)
    ensures r >= 1
  {
    if n == 0 then 1 else 10 * Pow10(n - 1)
  }

  predicate IsDigit(c: char) {
    '0' <= c <= '9'
  }

  predicate AllDigits(s: seq<char>) {
    forall i :: 0 <= i < |s| ==> IsDigit(s[i])
  }

  function DigitChar(d: nat): (c: char)
    requires d < 10
    ensures IsDigit(c)
  {
    ('0' as int + d) as char
  }

  function DigitValue(c: char): (d: nat)
    requires IsDigit(c)
    ensures d < 10
    ensures DigitChar(d) == c
  {
    c as int - '0' as int
  }

  /** The last `width` decimal digits of `n`, zero-padded on the left. */
  function Padded(n: nat, width: nat): (s: seq<char>)
    ensures |s| == width
    ensures AllDigits(s)
  {
    if width == 0 then [] else Padded(n / 10, width - 1) + [DigitChar(n % 10)]
  }

  /** The decimal digits of `n` without leading zeros. */
  function Digits(n: nat): (s: seq<char>)
    ensures 1 <= |s|
    ensures AllDigits(s)
  {
    if n < 10 then [DigitChar(n)] else Digits(n / 10) + [DigitChar(n % 10)]
  }

  /** The value of a string of decimal digits. */
  function ParseDigits(s: seq<char>): (n: nat)
    requires AllDigits(s)
    ensures n < Pow10(|s|)
  {
    if |s| == 0 then 0 else 10 * ParseDigits(s[..|s| - 1]) + DigitValue(s[|s| - 1])
  }

  /** Parsing a padded rendering gives back the number, when it fits the width. */
  lemma {:induction false} ParsePadded(n: nat, width: nat)
    requires n < Pow10(width)
    ensures ParseDigits(Padded(n, width)) == n
  {
    if width > 0 {
      var s := Padded(n, width);
      assert s[..|s| - 1] == Padded(n / 10, width - 1);
      ParsePadded(n / 10, width - 1);
    }
  }

  /** Parsing the digits of `n` gives back `n`. */
  lemma {:induction false} ParseDigitsOf(n: nat)
    ensures ParseDigits(Digits(n)) == n
  {
    if n >= 10 {
      var s := Digits(n);
      assert s[..|s| - 1] == Digits(n / 10);
      ParseDigitsOf(n / 10);
    }
  }

  /** A number of at least `Pow10(k)` has more than `k` digits. */
  lemma {:induction false} DigitsLength(n: nat, k: nat)
    requires n >= Pow10(k)
    ensures |Digits(n)| > k
  {
    if k > 0 {
      assert n >= 10;
      DigitsLength(n / 10, k - 1);
    }
  }
}

=== FILE: dispatch.dfy ===
/** Sending and reconciling of `src/update_loop.rs`: `Workunit::send_message`,
    the per-workunit state machine of `update_db_entry`, the loop of
    `do_workunits`, and the retry queue drained by `resync_db`. Every call
    out of the program (`get_filters`, the Discord send, `update_most_recent`,
    the message delete) is an outcome handed in by the caller. */
module Dispatch {

  import opened Outcomes
  import opened SubscriptionStore
  import opened Workunits

  /** A posted Discord message. */
  type MessageId = nat

  /** `send_message`: a NONSENSE workunit is passed on as "no message" before
      the filters are read; otherwise a failed filter lookup or a failed send
      is an error, a suppressed workunit is "no message", and a sent one is
      its message. */
  function SendMessage(w: Workunit, filters: Result<Filters>, send: Result<MessageId>): (r: Result<Option<MessageId>>)
    ensures w.extras.liveState == Nonsense ==> r == Ok(None)
    ensures r.Err? <==>
      w.extras.liveState != Nonsense && (filters.Err? || (Eligible(w.extras, filters.value) && send.Err?))
    ensures r.Ok? && r.value.Some? <==>
      w.extras.liveState != Nonsense && filters.Ok? && Eligible(w.extras, filters.value) && send.Ok?
    ensures r.Ok? && r.value.Some? ==> send == Ok(r.value.value)
  {
    if w.extras.liveState == Nonsense then Ok(None)
    else if filters.Err? then Err
    else if Suppressed(w.extras, filters.value) then Ok(None)
    else if send.Err? then Err
    else Ok(Some(send.value))
  }

  /** What became of one workunit. */
  datatype Disposition =
    | SendFailed                       // `send_message` failed: skipped, no cursor write
    | Written(sent: Option<MessageId>) // cursor written; a message, if any, stands
    | Dropped                          // cursor write failed, nothing was sent
    | Retracted(msg: MessageId)        // cursor write failed, the message was deleted
    | Queued(msg: MessageId)           // cursor write and delete failed: retried later

  /** The message a disposition leaves visible in the channel. */
  function Standing(d: Disposition): Option<MessageId> {
    match d
    case Written(msg) => msg
    case Queued(msg) => Some(msg)
    case _ => None
  }

  /** `update_db_entry` with the outcomes of `update_most_recent` and of the
      delete: the decision table of lines 210-232. */
  function UpdateDbEntry(msg: Option<MessageId>, writeOk: bool, deleteOk: bool): (d: Disposition)
    ensures d.Written? <==> writeOk
    ensures d.Written? ==> d.sent == msg
    ensures d.Dropped? <==> !writeOk && msg.None?
    ensures d.Retracted? <==> !writeOk && msg.Some? && deleteOk
    ensures d.Queued? <==> !writeOk && msg.Some? && !deleteOk
    ensures (d.Retracted? || d.Queued?) ==> msg == Some(d.msg)
    ensures d != SendFailed
  {
    if writeOk then Written(msg)
    else if msg.None? then Dropped
    else if deleteOk then Retracted(msg.value)
    else Queued(msg.value)
  }

  /** A message that stays visible either has its cursor written or waits in
      the retry queue, and the queue holds only workunits whose message
      stands undeleted. */
  lemma NoUnrecordedMessage(msg: Option<MessageId>, writeOk: bool, deleteOk: bool)
    ensures var d := UpdateDbEntry(msg, writeOk, deleteOk);
      (Standing(d).Some? ==> d.Written? || d.Queued?)
      && (d.Queued? ==> Standing(d) == msg && msg.Some?)
      && (!writeOk ==> Standing(d).None? || d.Queued?)
  {
  }

  /** The outcomes of every call one workunit makes. */
  datatype Effects = Effects(filters: Result<Filters>, send: Result<MessageId>, writeOk: bool, deleteOk: bool)

  /** One iteration of the `do_workunits` loop. */
  function Dispose(w: Workunit, fx: Effects): (d: Disposition)
    ensures d == SendFailed <==> SendMessage(w, fx.filters, fx.send).Err?
    ensures w.extras.liveState == Nonsense ==> d == UpdateDbEntry(None, fx.writeOk, fx.deleteOk)
    ensures Standing(d).Some? ==> fx.send == Ok(Standing(d).value)
  {
    match SendMessage(w, fx.filters, fx.send)
    case Err => SendFailed
    case Ok(msg) => UpdateDbEntry(msg, fx.writeOk, fx.deleteOk)
  }

  /** The cursor write `update_most_recent` makes for a workunit. */
  function WriteOf(w: Workunit): CursorWrite {
    CursorWrite(Key(w.playlist, w.channel), w.video.publishedAt)
  }

  /** What the workunit loop leaves behind: one disposition per workunit, the
      retry queue, and the cursor writes that succeeded, in order. */
  datatype Trace = Trace(ds: seq<Disposition>, queue: seq<Workunit>, writes: seq<CursorWrite>)

  /** What one workunit adds to the retry queue and to the cursor writes. */
  function QueueEntry(w: Workunit, d: Disposition): seq<Workunit> {
    if d.Queued? then [w] else []
  }

  function WriteEntry(w: Workunit, d: Disposition): seq<CursorWrite> {
    if d.Written? then [WriteOf(w)] else []
  }

  function Extend(t: Trace, w: Workunit, d: Disposition): Trace {
    Trace(t.ds + [d], t.queue + QueueEntry(w, d), t.writes + WriteEntry(w, d))
  }

  /** The workunits whose disposition is `Queued`, in order, each as often as
      it occurs. */
  function QueuedOf(ws: seq<Workunit>, ds: seq<Disposition>): seq<Workunit>
    requires |ds| == |ws|
    decreases |ws|
  {
    if |ws| == 0 then []
    else QueuedOf(ws[..|ws| - 1], ds[..|ws| - 1]) + QueueEntry(ws[|ws| - 1], ds[|ws| - 1])
  }

  /** The cursor writes of the workunits whose disposition is `Written`, in
      order. */
  function WrittenOf(ws: seq<Workunit>, ds: seq<Disposition>): seq<CursorWrite>
    requires |ds| == |ws|
    decreases |ws|
  {
    if |ws| == 0 then []
    else WrittenOf(ws[..|ws| - 1], ds[..|ws| - 1]) + WriteEntry(ws[|ws| - 1], ds[|ws| - 1])
  }

  /** The queue holds exactly the workunits of `Queued` positions. */
  lemma {:induction false} QueuedOfMembers(ws: seq<Workunit>, ds: seq<Disposition>)
    requires |ds| == |ws|
    ensures forall w :: w in QueuedOf(ws, ds) <==> exists k :: 0 <= k < |ws| && ws[k] == w && ds[k].Queued?
    decreases |ws|
  {
    if |ws| > 0 {
      var n := |ws| - 1;
      QueuedOfMembers(ws[..n], ds[..n]);
      forall w | w in QueuedOf(ws, ds)
        ensures exists k :: 0 <= k < |ws| && ws[k] == w && ds[k].Queued?
      {
        if w !in QueuedOf(ws[..n], ds[..n]) {
          assert ws[n] == w && ds[n].Queued?;
        } else {
          var k :| 0 <= k < n && ws[..n][k] == w && ds[..n][k].Queued?;
          assert ws[k] == w && ds[k].Queued?;
        }
      }
      forall k | 0 <= k < |ws| && ds[k].Queued?
        ensures ws[k] in QueuedOf(ws, ds)
      {
        if k < n {
          assert ws[..n][k] == ws[k] && ds[..n][k] == ds[k];
        }
      }
    }
  }

  /** The writes are exactly those of the `Written` positions. */
  lemma {:induction false} WrittenOfMembers(ws: seq<Workunit>, ds: seq<Disposition>)
    requires |ds| == |ws|
    ensures forall k :: 0 <= k < |ws| && ds[k].Written? ==> WriteOf(ws[k]) in WrittenOf(ws, ds)
    ensures forall cw :: cw in WrittenOf(ws, ds) ==> exists k :: 0 <= k < |ws| && ds[k].Written? && WriteOf(ws[k]) == cw
    decreases |ws|
  {
    if |ws| > 0 {
      var n := |ws| - 1;
      WrittenOfMembers(ws[..n], ds[..n]);
      forall cw | cw in WrittenOf(ws, ds)
        ensures exists k :: 0 <= k < |ws| && ds[k].Written? && WriteOf(ws[k]) == cw
      {
        if cw !in WrittenOf(ws[..n], ds[..n]) {
          assert ds[n].Written? && WriteOf(ws[n]) == cw;
        } else {
          var k :| 0 <= k < n && ds[..n][k].Written? && WriteOf(ws[..n][k]) == cw;
          assert ds[k].Written? && WriteOf(ws[k]) == cw;
        }
      }
      forall k | 0 <= k < |ws| && ds[k].Written?
        ensures WriteOf(ws[k]) in WrittenOf(ws, ds)
      {
        if k < n {
          assert ws[..n][k] == ws[k] && ds[..n][k] == ds[k];
        }
      }
    }
  }

  /** The loop of `do_workunits` over the workunits in order: the queue and
      the writes are the queued workunits and the written cursors in
      dispatch order. */
  function Dispatched(ws: seq<Workunit>, fx: seq<Effects>): (t: Trace)
    requires |fx| == |ws|
    ensures |t.ds| == |ws|
    ensures forall k :: 0 <= k < |ws| ==> t.ds[k] == Dispose(ws[k], fx[k])
    ensures t.queue == QueuedOf(ws, t.ds)
    ensures t.writes == WrittenOf(ws, t.ds)
    ensures forall w :: w in t.queue <==> exists k :: 0 <= k < |ws| && ws[k] == w && t.ds[k].Queued?
    ensures forall k :: 0 <= k < |ws| && t.ds[k].Written? ==> WriteOf(ws[k]) in t.writes
    ensures forall cw :: cw in t.writes ==> exists k :: 0 <= k < |ws| && t.ds[k].Written? && WriteOf(ws[k]) == cw
    decreases |ws|
  {
    if |ws| == 0 then Trace([], [], [])
    else
      var n := |ws| - 1;
      var t := Dispatched(ws[..n], fx[..n]);
      var e := Extend(t, ws[n], Dispose(ws[n], fx[n]));
      ExtendDispatched(ws, fx, t);
      QueuedOfMembers(ws, e.ds);
      WrittenOfMembers(ws, e.ds);
      e
  }

  /** One turn of the `do_workunits` loop keeps the dispositions pointwise
      and the queue and writes their in-order subsequences. */
  lemma ExtendDispatched(ws: seq<Workunit>, fx: seq<Effects>, t: Trace)
    requires |fx| == |ws| > 0
    requires |t.ds| == |ws| - 1
    requires forall k :: 0 <= k < |ws| - 1 ==> t.ds[k] == Dispose(ws[..|ws| - 1][k], fx[..|ws| - 1][k])
    requires t.queue == QueuedOf(ws[..|ws| - 1], t.ds)
    requires t.writes == WrittenOf(ws[..|ws| - 1], t.ds)
    ensures var e := Extend(t, ws[|ws| - 1], Dispose(ws[|ws| - 1], fx[|ws| - 1]));
      |e.ds| == |ws|
      && (forall k :: 0 <= k < |ws| ==> e.ds[k] == Dispose(ws[k], fx[k]))
      && e.queue == QueuedOf(ws, e.ds)
      && e.writes == WrittenOf(ws, e.ds)
  {
    var n := |ws| - 1;
    var ds := t.ds + [Dispose(ws[n], fx[n])];
    assert ds[..n] == t.ds;
    forall k | 0 <= k < n
      ensures ds[k] == Dispose(ws[k], fx[k])
    {
      assert ws[..n][k] == ws[k] && fx[..n][k] == fx[k];
    }
  }

  lemma DispatchedSnoc(ws: seq<Workunit>, fx: seq<Effects>, w: Workunit, e: Effects)
    requires |fx| == |ws|
    ensures Dispatched(ws + [w], fx + [e]) == Extend(Dispatched(ws, fx), w, Dispose(w, e))
  {
    assert (ws + [w])[..|ws|] == ws;
    assert (fx + [e])[..|fx|] == fx;
  }

  // ---------------------------------------------------------------------------
  // Retry queue
  // ---------------------------------------------------------------------------

  function CountTrue(s: seq<bool>): (n: nat)
    ensures n <= |s|
    decreases |s|
  {
    if |s| == 0 then 0 else (if s[0] then 1 else 0) + CountTrue(s[1..])
  }

  function Min(a: int, b: int): int {
    if a < b then a else b
  }

  /** What `resync_db` did before its outcome sequence ran out: the workunits
      whose cursor write succeeded, in order; the number of failed attempts
      (`failure_count`); what is still queued; and how many outcomes it used. */
  datatype Resynced = Resynced(written: seq<Workunit>, failures: nat, pending: seq<Workunit>, consumed: nat)

  /** `resync_db`, lines 243-267, against the outcomes of its successive
      `update_most_recent` calls: the head is popped and written, and goes
      back to the tail when the write fails. The program loops until the
      queue is empty; here the loop also stops when the outcomes run out. */
  function Resync(q: seq<Workunit>, oracle: seq<bool>): (r: Resynced)
    ensures |r.written| + |r.pending| == |q|
    ensures r.consumed == |r.written| + r.failures <= |oracle|
    ensures r.pending != [] ==> r.consumed == |oracle|
    decreases |oracle|
  {
    if |q| == 0 || |oracle| == 0 then Resynced([], 0, q, 0)
    else if oracle[0] then
      var t := Resync(q[1..], oracle[1..]);
      Resynced([q[0]] + t.written, t.failures, t.pending, t.consumed + 1)
    else
      var t := Resync(q[1..] + [q[0]], oracle[1..]);
      Resynced(t.written, t.failures + 1, t.pending, t.consumed + 1)
  }

  /** Nothing is lost or duplicated: what was written and what is still
      queued together make up the queue. */
  lemma {:induction false} ResyncPermutes(q: seq<Workunit>, oracle: seq<bool>)
    ensures var r := Resync(q, oracle); multiset(r.written) + multiset(r.pending) == multiset(q)
    decreases |oracle|
  {
    if |q| > 0 && |oracle| > 0 {
      assert q == [q[0]] + q[1..];
      if oracle[0] {
        ResyncPermutes(q[1..], oracle[1..]);
      } else {
        ResyncPermutes(q[1..] + [q[0]], oracle[1..]);
      }
    }
  }

  /** Every successful outcome writes one workunit until the queue is empty,
      so the queue drains exactly when at least as many writes succeed as
      there were workunits queued. */
  lemma {:induction false} ResyncWrittenCount(q: seq<Workunit>, oracle: seq<bool>)
    ensures |Resync(q, oracle).written| == Min(|q|, CountTrue(oracle))
    ensures Resync(q, oracle).pending == [] <==> CountTrue(oracle) >= |q|
    decreases |oracle|
  {
    if |q| > 0 && |oracle| > 0 {
      if oracle[0] {
        ResyncWrittenCount(q[1..], oracle[1..]);
      } else {
        ResyncWrittenCount(q[1..] + [q[0]], oracle[1..]);
      }
    }
  }

  /** With every write succeeding, the queue is written in FIFO order. */
  lemma {:induction false} ResyncFifo(q: seq<Workunit>, oracle: seq<bool>)
    requires |oracle| >= |q|
    requires forall i :: 0 <= i < |oracle| ==> oracle[i]
    ensures Resync(q, oracle).written == q
    ensures Resync(q, oracle).failures == 0
    decreases |q|
  {
    if |q| > 0 {
      ResyncFifo(q[1..], oracle[1..]);
      assert q == [q[0]] + q[1..];
    }
  }

  /** Each failed attempt is counted once: `failure_count` is the number of
      failed outcomes among those used. */
  lemma {:induction false} ResyncCountsFailures(q: seq<Workunit>, oracle: seq<bool>)
    ensures var r := Resync(q, oracle);
      r.consumed - CountTrue(oracle[..r.consumed]) == r.failures
    decreases |oracle|
  {
    if |q| == 0 || |oracle| == 0 {
      assert oracle[..0] == [];
    } else {
      var rest := if oracle[0] then q[1..] else q[1..] + [q[0]];
      var t := Resync(rest, oracle[1..]);
      assert Resync(q, oracle).consumed == t.consumed + 1;
      assert Resync(q, oracle).failures == t.failures + (if oracle[0] then 0 else 1);
      ResyncCountsFailures(rest, oracle[1..]);
      var c := Resync(rest, oracle[1..]).consumed;
      PrefixCount(oracle, c);
    }
  }

  lemma PrefixCount(oracle: seq<bool>, c: nat)
    requires c < |oracle|
    ensures CountTrue(oracle[..c + 1]) == (if oracle[0] then 1 else 0) + CountTrue(oracle[1..][..c])
  {
    var o := oracle[..c + 1];
    assert o[1..] == oracle[1..][..c];
  }

  /** The outcome of a resync that had already written `written` and failed
      `failures` times before continuing with `rest`. */
  function After(written: seq<Workunit>, failures: nat, rest: Resynced): Resynced {
    Resynced(written + rest.written, failures + rest.failures, rest.pending, |written| + failures + rest.consumed)
  }

  lemma ResyncLoopWrite(written: seq<Workunit>, failures: nat, pending: seq<Workunit>, oracle: seq<bool>, i: nat)
    requires i < |oracle| && |pending| > 0 && oracle[i]
    ensures After(written, failures, Resync(pending, oracle[i..]))
         == After(written + [pending[0]], failures, Resync(pending[1..], oracle[i + 1..]))
  {
    var o := oracle[i..];
    assert o[1..] == oracle[i + 1..];
    var t := Resync(pending[1..], o[1..]);
    var head := [pending[0]];
    var r := Resync(pending, o);
    assert r == Resynced(head + t.written, t.failures, t.pending, t.consumed + 1);
    var lhs, rhs := After(written, failures, r), After(written + head, failures, t);
    assert lhs.written == rhs.written by {
      SeqAssoc(written, head, t.written);
    }
    assert lhs.consumed == rhs.consumed;
  }

  /** Kept apart: stated inline, the associativity step makes the caller's
      proof several times more expensive. */
  lemma SeqAssoc(a: seq<Workunit>, b: seq<Workunit>, c: seq<Workunit>)
    ensures a + (b + c) == (a + b) + c
  {
  }

  lemma ResyncLoopFail(written: seq<Workunit>, failures: nat, pending: seq<Workunit>, oracle: seq<bool>, i: nat)
    requires i < |oracle| && |pending| > 0 && !oracle[i]
    ensures After(written, failures, Resync(pending, oracle[i..]))
         == After(written, failures + 1, Resync(pending[1..] + [pending[0]], oracle[i + 1..]))
  {
    var o := oracle[i..];
    assert o[1..] == oracle[i + 1..];
    var t := Resync(pending[1..] + [pending[0]], o[1..]);
    assert Resync(pending, o) == Resynced(t.written, t.failures + 1, t.pending, t.consumed + 1);
  }

  /** The loop of `resync_db` itself, over a deque held as a sequence. */
  method ResyncDb(q: seq<Workunit>, oracle: seq<bool>) returns (written: seq<Workunit>, failures: nat, pending: seq<Workunit>)
    ensures Resync(q, oracle) == Resynced(written, failures, pending, |written| + failures)
  {
    written, failures, pending := [], 0, q;
    ResyncLoopStart(q, oracle);
    if |pending| == 0 {
      return;
    }
    var i := 0;
    while i < |oracle| && |pending| > 0
      invariant i <= |oracle|
      invariant Resync(q, oracle) == After(written, failures, Resync(pending, oracle[i..]))
      decreases |oracle| - i
    {
      var w := pending[0];
      if oracle[i] {
        ResyncLoopWrite(written, failures, pending, oracle, i);
        written := written + [w];
        pending := pending[1..];
      } else {
        ResyncLoopFail(written, failures, pending, oracle, i);
        failures := failures + 1;
        pending := pending[1..] + [w];
      }
      i := i + 1;
      assert Resync(q, oracle) == After(written, failures, Resync(pending, oracle[i..]));
    }
    ResyncLoopEnd(written, failures, pending, oracle, i);
  }

  lemma ResyncLoopStart(q: seq<Workunit>, oracle: seq<bool>)
    ensures Resync(q, oracle) == After([], 0, Resync(q, oracle[0..]))
    ensures |q| == 0 ==> Resync(q, oracle) == Resynced([], 0, q, 0)
  {
    assert oracle[0..] == oracle;
    assert [] + Resync(q, oracle).written == Resync(q, oracle).written;
  }

  lemma ResyncLoopEnd(written: seq<Workunit>, failures: nat, pending: seq<Workunit>, oracle: seq<bool>, i: nat)
    requires i <= |oracle| && (i == |oracle| || |pending| == 0)
    ensures After(written, failures, Resync(pending, oracle[i..])) == Resynced(written, failures, pending, |written| + failures)
  {
    assert Resync(pending, oracle[i..]) == Resynced([], 0, pending, 0);
    assert written + [] == written;
  }

  /** Given enough successful writes, every queued workunit is written. */
  lemma DrainedWritesAll(q: seq<Workunit>, oracle: seq<bool>, w: Workunit)
    requires CountTrue(oracle) >= |q| && w in q
    ensures w in Resync(q, oracle).written
  {
    var r := Resync(q, oracle);
    ResyncWrittenCount(q, oracle);
    ResyncPermutes(q, oracle);
    assert w in multiset(q);
  }

  // ---------------------------------------------------------------------------
  // One batch: the loop, then the retry queue
  // ---------------------------------------------------------------------------

  /** `do_workunits`: every workunit in order, then `resync_db` on the queue. */
  method DoWorkunits(ws: seq<Workunit>, fx: seq<Effects>, oracle: seq<bool>) returns (t: Trace, r: Resynced)
    requires |fx| == |ws|
    ensures t == Dispatched(ws, fx)
    ensures r == Resync(t.queue, oracle)
  {
    t := Trace([], [], []);
    var k := 0;
    while k < |ws|
      invariant k <= |ws|
      invariant t == Dispatched(ws[..k], fx[..k])
    {
      DispatchedPrefix(ws, fx, k);
      var w := ws[k];
      var d: Disposition;
      match SendMessage(w, fx[k].filters, fx[k].send) {
        case Err =>
          d := SendFailed;
        case Ok(msg) =>
          d := UpdateDbEntry(msg, fx[k].writeOk, fx[k].deleteOk);
      }
      assert d == Dispose(w, fx[k]);
      t := Extend(t, w, d);
      k := k + 1;
    }
    assert ws[..k] == ws && fx[..k] == fx;
    var written, failures, pending := ResyncDb(t.queue, oracle);
    r := Resynced(written, failures, pending, |written| + failures);
  }

  lemma DispatchedPrefix(ws: seq<Workunit>, fx: seq<Effects>, k: nat)
    requires |fx| == |ws| && k < |ws|
    ensures Dispatched(ws[..k + 1], fx[..k + 1]) == Extend(Dispatched(ws[..k], fx[..k]), ws[k], Dispose(ws[k], fx[k]))
  {
    assert ws[..k + 1] == ws[..k] + [ws[k]];
    assert fx[..k + 1] == fx[..k] + [fx[k]];
    DispatchedSnoc(ws[..k], fx[..k], ws[k], fx[k]);
  }

  /** All cursor writes of a batch, in the order they happen. */
  function BatchWrites(t: Trace, r: Resynced): seq<CursorWrite> {
    t.writes + seq(|r.written|, i requires 0 <= i < |r.written| => WriteOf(r.written[i]))
  }

  lemma ResyncWriteInBatch(t: Trace, r: Resynced, w: Workunit)
    requires w in r.written
    ensures WriteOf(w) in BatchWrites(t, r)
  {
    var i :| 0 <= i < |r.written| && r.written[i] == w;
    assert BatchWrites(t, r)[|t.writes| + i] == WriteOf(w);
  }

  /** Once the retry queue drains, every message left standing has its cursor
      written, so the next poll will not post it again. */
  lemma DrainedBatchRecordsEveryMessage(ws: seq<Workunit>, fx: seq<Effects>, oracle: seq<bool>, k: nat)
    requires |fx| == |ws| && k < |ws|
    requires CountTrue(oracle) >= |Dispatched(ws, fx).queue|
    requires Standing(Dispatched(ws, fx).ds[k]).Some?
    ensures WriteOf(ws[k]) in BatchWrites(Dispatched(ws, fx), Resync(Dispatched(ws, fx).queue, oracle))
  {
    var t := Dispatched(ws, fx);
    var r := Resync(t.queue, oracle);
    if t.ds[k].Queued? {
      assert ws[k] in t.queue;
      DrainedWritesAll(t.queue, oracle, ws[k]);
      ResyncWriteInBatch(t, r, ws[k]);
    } else {
      assert WriteOf(ws[k]) in t.writes;
    }
  }

  /** Removing position `k` from a sequence and then its last element is
      removing the last element and then position `k`. */
  lemma RemoveThenInit<T>(s: seq<T>, k: nat)
    requires k < |s| - 1
    ensures var r := s[..k] + s[k + 1..];
      |r| == |s| - 1 && r[..|r| - 1] == s[..|s| - 1][..k] + s[..|s| - 1][k + 1..] && r[|r| - 1] == s[|s| - 1]
  {
  }

  lemma RemoveLast<T>(s: seq<T>, k: nat)
    requires k == |s| - 1
    ensures s[..k] + s[k + 1..] == s[..k]
  {
  }

  /** A `SendFailed` workunit adds nothing to the retry queue. */
  lemma {:induction false} QueuedOfSkips(ws: seq<Workunit>, ds: seq<Disposition>, k: nat)
    requires |ds| == |ws| && k < |ws| && ds[k] == SendFailed
    ensures QueuedOf(ws, ds) == QueuedOf(ws[..k] + ws[k + 1..], ds[..k] + ds[k + 1..])
    decreases |ws|
  {
    var n := |ws| - 1;
    var a, ad := ws[..n], ds[..n];
    assert QueuedOf(ws, ds) == QueuedOf(a, ad) + QueueEntry(ws[n], ds[n]);
    if k == n {
      RemoveLast(ws, k);
      RemoveLast(ds, k);
    } else {
      QueuedOfSkips(a, ad, k);
      RemoveThenInit(ws, k);
      RemoveThenInit(ds, k);
      var r, rd := ws[..k] + ws[k + 1..], ds[..k] + ds[k + 1..];
      assert QueuedOf(r, rd) == QueuedOf(a[..k] + a[k + 1..], ad[..k] + ad[k + 1..]) + QueueEntry(ws[n], ds[n]);
    }
  }

  /** A `SendFailed` workunit adds nothing to the cursor writes. */
  lemma {:induction false} WrittenOfSkips(ws: seq<Workunit>, ds: seq<Disposition>, k: nat)
    requires |ds| == |ws| && k < |ws| && ds[k] == SendFailed
    ensures WrittenOf(ws, ds) == WrittenOf(ws[..k] + ws[k + 1..], ds[..k] + ds[k + 1..])
    decreases |ws|
  {
    var n := |ws| - 1;
    var a, ad := ws[..n], ds[..n];
    assert WrittenOf(ws, ds) == WrittenOf(a, ad) + WriteEntry(ws[n], ds[n]);
    if k == n {
      RemoveLast(ws, k);
      RemoveLast(ds, k);
    } else {
      WrittenOfSkips(a, ad, k);
      RemoveThenInit(ws, k);
      RemoveThenInit(ds, k);
      var r, rd := ws[..k] + ws[k + 1..], ds[..k] + ds[k + 1..];
      assert WrittenOf(r, rd) == WrittenOf(a[..k] + a[k + 1..], ad[..k] + ad[k + 1..]) + WriteEntry(ws[n], ds[n]);
    }
  }

  /** Dispositions are pointwise, so those of the batch without `k` are the
      batch's own with position `k` removed. */
  lemma DispositionsWithout(ws: seq<Workunit>, fx: seq<Effects>, ds: seq<Disposition>, ds': seq<Disposition>, k: nat)
    requires |fx| == |ws| && |ds| == |ws| && k < |ws|
    requires forall j :: 0 <= j < |ws| ==> ds[j] == Dispose(ws[j], fx[j])
    requires |ds'| == |ws| - 1
    requires forall j :: 0 <= j < |ds'| ==> ds'[j] == Dispose((ws[..k] + ws[k + 1..])[j], (fx[..k] + fx[k + 1..])[j])
    ensures ds' == ds[..k] + ds[k + 1..]
  {
    var ws', fx' := ws[..k] + ws[k + 1..], fx[..k] + fx[k + 1..];
    forall j | 0 <= j < |ds'|
      ensures ds'[j] == (ds[..k] + ds[k + 1..])[j]
    {
      if j < k {
        assert ws'[j] == ws[j] && fx'[j] == fx[j];
      } else {
        assert ws'[j] == ws[j + 1] && fx'[j] == fx[j + 1];
      }
    }
  }

  /** A workunit whose send fails gets `SendFailed` and nothing else: the
      batch's dispositions, retry queue and cursor writes are those of the
      batch without it. */
  lemma SendErrorSkipsOnlyItsWorkunit(ws: seq<Workunit>, fx: seq<Effects>, k: nat)
    requires |fx| == |ws| && k < |ws|
    requires SendMessage(ws[k], fx[k].filters, fx[k].send).Err?
    ensures Dispatched(ws, fx).ds[k] == SendFailed
    ensures var t, u := Dispatched(ws, fx), Dispatched(ws[..k] + ws[k + 1..], fx[..k] + fx[k + 1..]);
      u.ds == t.ds[..k] + t.ds[k + 1..] && u.queue == t.queue && u.writes == t.writes
  {
    var t := Dispatched(ws, fx);
    var u := Dispatched(ws[..k] + ws[k + 1..], fx[..k] + fx[k + 1..]);
    DispositionsWithout(ws, fx, t.ds, u.ds, k);
    QueuedOfSkips(ws, t.ds, k);
    WrittenOfSkips(ws, t.ds, k);
  }
}

=== FILE: outcomes.dfy ===
/** Failure-carrying values shared by the model: `Option` for values that may
    be absent and `Result` for the outcome of a call into an external system
    (the database, Discord, the YouTube API). The error payloads of those calls
    are never inspected by the modelled code, so `Err` carries none. */
module Outcomes {

  datatype Option<+T> = None | Some(value: T)

  datatype Result<+T> = Ok(value: T) | Err
}

=== FILE: ratelimit.dfy ===
/** The rate limiter of `src/rate_limit.rs` as a state transition over an
    integer millisecond clock. The state is the instant of the last use and
    the guarded resource; `use_with` waits until `time_per` has passed since
    that instant, runs the call, and records the instant the call finished.
    The clock starts at 0, so `Instant::checked_sub` fails below `time_per`. */
module RateLimit {

  /** One day in milliseconds. */
  const Day: nat := 1000 * 60 * 60 * 24

  /** The YouTube quota: requests per day. */
  const DailyRequests: nat := 10000

  /** Milliseconds between two YouTube requests: one day shared among the
      daily requests (`TIME_PER_REQUEST` in `src/main.rs`). */
  const TimePerRequest: nat := 1000 * 60 * 60 * 24 / 10000

  function Max(a: int, b: int): int {
    if a < b then b else a
  }

  datatype Limiter<T> = Limiter(timePer: nat, last: nat, resource: T)

  /** `RateLimiter::new`: the last use is the construction instant. */
  function New<T>(timePer: nat, now: nat, resource: T): (l: Limiter<T>)
    ensures l.timePer == timePer && l.resource == resource
    ensures l.last == now
  {
    Limiter(timePer, now, resource)
  }

  /** `RateLimiter::new_fast`: the last use is backdated by `time_per`, or is
      the construction instant when that would fall before the clock's origin. */
  function NewFast<T>(timePer: nat, now: nat, resource: T): (l: Limiter<T>)
    ensures l.timePer == timePer && l.resource == resource
    ensures l.last <= now
    ensures now >= timePer ==> l.last + timePer == now
    ensures now < timePer ==> l.last == now
  {
    Limiter(timePer, if now >= timePer then now - timePer else now, resource)
  }

  /** The sleep of `use_with` when the lock is taken at `now`: `elapsed`
      saturates at zero (`duration_since`), and the sleep happens only when
      `time_per - elapsed` does not underflow. */
  function SleepFor(timePer: nat, last: nat, now: nat): (d: nat)
    ensures d <= timePer
    ensures now >= last ==> now + d == Max(now, last + timePer)
    ensures now < last ==> d == timePer
  {
    var elapsed := if now >= last then now - last else 0;
    if timePer >= elapsed then timePer - elapsed else 0
  }

  /** One call through the limiter: what the guarded function returned, when
      it started and when it finished. */
  datatype Call<O> = Call(output: O, start: nat, finish: nat)

  /** `use_with`, with the lock taken at `now` and the guarded future taking
      `duration` milliseconds. The new state records the finish instant; the
      resource itself is handed out as a clone and stays as it was. */
  function UseWith<T, O>(l: Limiter<T>, now: nat, f: T -> O, duration: nat): (r: (Limiter<T>, Call<O>))
    ensures r.1.output == f(l.resource)
    ensures r.0.resource == l.resource && r.0.timePer == l.timePer
    ensures now <= r.1.start <= now + l.timePer
    ensures now >= l.last ==> r.1.start == Max(now, l.last + l.timePer)
    ensures r.1.finish == r.1.start + duration
    ensures r.0.last == r.1.finish
  {
    var start := now + SleepFor(l.timePer, l.last, now);
    var finish := start + duration;
    (Limiter(l.timePer, finish, l.resource), Call(f(l.resource), start, finish))
  }

  /** A request for the limiter: when it arrives and how long its call runs. */
  datatype Request = Request(arrival: nat, duration: nat)

  /** Requests served one after another, as the mutex around the state makes
      them: each takes the lock at its arrival or when the previous call
      released it (`free`), whichever is later. */
  function Serve<T, O>(l: Limiter<T>, f: T -> O, reqs: seq<Request>, free: nat): (calls: seq<Call<O>>)
    requires l.last <= free
    ensures |calls| == |reqs|
    ensures forall k :: 0 <= k < |calls| ==>
      calls[k].output == f(l.resource)
      && calls[k].start >= reqs[k].arrival
      && calls[k].finish == calls[k].start + reqs[k].duration
    ensures |calls| > 0 ==> calls[0].start == Max(Max(reqs[0].arrival, free), l.last + l.timePer)
    ensures forall k :: 0 <= k < |calls| - 1 ==> calls[k + 1].start >= calls[k].finish + l.timePer
    decreases |reqs|
  {
    if |reqs| == 0 then []
    else
      var r := UseWith(l, Max(reqs[0].arrival, free), f, reqs[0].duration);
      [r.1] + Serve(r.0, f, reqs[1..], r.1.finish)
  }

  /** After `new`, a call made at construction time waits the full period. */
  lemma NewWaitsFullPeriod<T, O>(timePer: nat, now: nat, resource: T, f: T -> O, duration: nat)
    ensures UseWith(New(timePer, now, resource), now, f, duration).1.start == now + timePer
  {
  }

  /** After `new_fast`, the first call starts at once, unless backdating
      underflowed the clock, in which case a call at construction time waits
      the full period. */
  lemma NewFastFirstCall<T, O>(timePer: nat, now: nat, at: nat, resource: T, f: T -> O, duration: nat)
    requires now <= at
    ensures now >= timePer ==> UseWith(NewFast(timePer, now, resource), at, f, duration).1.start == at
    ensures now < timePer ==> UseWith(NewFast(timePer, now, resource), now, f, duration).1.start == now + timePer
  {
  }

  /** Spacing over a whole sequence of calls: any later call starts at least
      one period after every earlier call has finished. */
  lemma {:induction false} ServeSpacing<T, O>(l: Limiter<T>, f: T -> O, reqs: seq<Request>, free: nat, i: nat, j: nat)
    requires l.last <= free
    requires i < j < |reqs|
    ensures Serve(l, f, reqs, free)[j].start >= Serve(l, f, reqs, free)[i].finish + l.timePer
    decreases j - i
  {
    var calls := Serve(l, f, reqs, free);
    if j > i + 1 {
      ServeSpacing(l, f, reqs, free, i + 1, j);
      assert calls[i + 1].finish >= calls[i + 1].start;
    }
  }

  /** Calls `n` apart in the order of service are at least `n` periods apart:
      call `i + n` starts `n * time_per` or more after call `i` finished. */
  lemma {:induction false} ServeChain<T, O>(l: Limiter<T>, f: T -> O, reqs: seq<Request>, free: nat, i: nat, n: nat)
    requires l.last <= free
    requires 0 < n && i + n < |reqs|
    ensures Serve(l, f, reqs, free)[i + n].start >= Serve(l, f, reqs, free)[i].finish + n * l.timePer
    decreases n
  {
    var calls := Serve(l, f, reqs, free);
    if n > 1 {
      ServeChain(l, f, reqs, free, i, n - 1);
      assert calls[i + n - 1].finish >= calls[i + n - 1].start;
      assert (n - 1) * l.timePer + l.timePer == n * l.timePer;
    }
  }

  /** Starts are in the order of service. */
  lemma StartsInOrder<T, O>(l: Limiter<T>, f: T -> O, reqs: seq<Request>, free: nat, i: nat, j: nat)
    requires l.last <= free
    requires i <= j < |reqs|
    ensures Serve(l, f, reqs, free)[j].start >= Serve(l, f, reqs, free)[i].start
  {
    if i < j {
      ServeSpacing(l, f, reqs, free, i, j);
      assert Serve(l, f, reqs, free)[i].finish >= Serve(l, f, reqs, free)[i].start;
    }
  }

  /** With `TIME_PER_REQUEST` between calls, the call `DailyRequests` places
      later starts at least one day later. */
  lemma DayApart<T, O>(l: Limiter<T>, f: T -> O, reqs: seq<Request>, free: nat, i: nat)
    requires l.last <= free && l.timePer == TimePerRequest
    requires i + DailyRequests < |reqs|
    ensures Serve(l, f, reqs, free)[i + DailyRequests].start >= Serve(l, f, reqs, free)[i].start + Day
  {
    assert DailyRequests == 10000 && l.timePer == 8640 && Day == 86400000;
    ServeChain(l, f, reqs, free, i, 10000);
    assert Serve(l, f, reqs, free)[i].finish >= Serve(l, f, reqs, free)[i].start;
  }

  /** The YouTube limiter, `RateLimiter::new(TIME_PER_REQUEST, youtube)` in
      `src/main.rs`, keeps to the daily quota: of the calls it serves, those
      that start within one day of each other are fewer than `DailyRequests`
      apart, so no day sees more than `DailyRequests` calls start. */
  lemma DailyQuota<T, O>(now: nat, resource: T, f: T -> O, reqs: seq<Request>, free: nat, i: nat, j: nat)
    requires now <= free
    requires i <= j < |reqs|
    requires Serve(New(TimePerRequest, now, resource), f, reqs, free)[j].start
           < Serve(New(TimePerRequest, now, resource), f, reqs, free)[i].start + Day
    ensures j - i < DailyRequests
  {
    if j >= i + DailyRequests {
      var l := New(TimePerRequest, now, resource);
      DayApart(l, f, reqs, free, i);
      StartsInOrder(l, f, reqs, free, i + DailyRequests, j);
      assert false;
    }
  }
}

=== FILE: store.dfy ===
/** The subscription store of `src/db.rs`, with the SQL engine replaced by a
    map. The `channels` table has primary key `(playlist_id, channel_id)` and a
    `most_recent` text column holding the cursor as written by `into_sqlite`
    (schema in `src/main.rs`). Filters are read through `get_filters`, whose
    storage is not part of this model. */
module SubscriptionStore {

  import opened Outcomes
  import opened Timestamp
  import TextOrder

  type PlaylistId = string

  /** A Discord channel id. */
  type ChannelId = nat

  datatype Key = Key(playlist: PlaylistId, channel: ChannelId)

  /** Rows of the `channels` table: primary key to `most_recent`. */
  type Table = map<Key, string>

  /** No element occurs twice. */
  predicate Distinct<T(==)>(s: seq<T>) {
    forall i, j :: 0 <= i < j < |s| ==> s[i] != s[j]
  }

  /** Lists the elements of a finite set once each, in no particular order:
      what a `SELECT DISTINCT` hands back. */
  method Enumerate<T(==)>(s: set<T>) returns (r: seq<T>)
    ensures Distinct(r)
    ensures |r| == |s|
    ensures forall x :: x in r <==> x in s
  {
    r := [];
    var rest := s;
    while rest != {}
      invariant rest <= s
      invariant Distinct(r)
      invariant forall x :: x in r <==> x in s && x !in rest
      invariant |r| + |rest| == |s|
      decreases rest
    {
      var x :| x in rest;
      r := r + [x];
      rest := rest - {x};
    }
  }

  /** `add_channel`: inserts the row with the cursor `into_sqlite(DateTime::default())`;
      the insert fails on an existing primary key. */
  function AddChannel(t: Table, p: PlaylistId, c: ChannelId): (r: Result<Table>)
    ensures r.Ok? <==> Key(p, c) !in t
    ensures r.Ok? ==> r.value.Keys == t.Keys + {Key(p, c)}
    ensures r.Ok? ==> r.value[Key(p, c)] == "1970-01-01 00:00:00"
    ensures r.Ok? ==> forall k :: k in t ==> r.value[k] == t[k]
  {
    if Key(p, c) in t then Err
    else
      EpochText(Epoch);
      Ok(t[Key(p, c) := IntoSqlite(Epoch)])
  }

  /** `get_playlists`: every playlist with at least one subscription, once. */
  method GetPlaylists(t: Table) returns (ps: seq<PlaylistId>)
    ensures Distinct(ps)
    ensures forall p :: p in ps <==> exists c :: Key(p, c) in t
  {
    ps := Enumerate(set k | k in t :: k.playlist);
    forall p | exists c :: Key(p, c) in t
      ensures p in ps
    {
      var c :| Key(p, c) in t;
      assert Key(p, c).playlist == p;
    }
  }

  /** The `WHERE` clause of `get_channels_to_send`: the row exists and its
      cursor text is below the text of the publication time. */
  predicate Due(t: Table, p: PlaylistId, c: ChannelId, publishedAt: DateTime) {
    Key(p, c) in t && TextOrder.Less(t[Key(p, c)], IntoSqlite(publishedAt))
  }

  /** `get_channels_to_send`: the distinct channels of playlist `p` whose
      cursor is strictly below the publication time. */
  method GetChannelsToSend(t: Table, p: PlaylistId, publishedAt: DateTime) returns (cs: seq<ChannelId>)
    ensures Distinct(cs)
    ensures forall c :: c in cs <==> Due(t, p, c, publishedAt)
  {
    cs := Enumerate(set k | k in t && Due(t, p, k.channel, publishedAt) && k.playlist == p :: k.channel);
    forall c | Due(t, p, c, publishedAt)
      ensures c in cs
    {
      assert Key(p, c).channel == c;
    }
  }

  /** For cursors written by `into_sqlite` and four-digit years, a channel is
      due exactly when its cursor is an earlier second than the publication
      time; in particular a cursor at the same second is not due. */
  lemma DueIffCursorEarlier(t: Table, p: PlaylistId, c: ChannelId, cursor: DateTime, publishedAt: DateTime)
    requires Key(p, c) in t && t[Key(p, c)] == IntoSqlite(cursor)
    requires FourDigitYear(cursor) && FourDigitYear(publishedAt)
    ensures Due(t, p, c, publishedAt) <==> Seconds(cursor) < Seconds(publishedAt)
  {
    TextOrderIsChronological(cursor, publishedAt);
  }

  /** A new subscription is due for every video published in a later second
      than the epoch. */
  lemma NewSubscriptionIsDue(t: Table, p: PlaylistId, c: ChannelId, publishedAt: DateTime)
    requires Key(p, c) !in t
    requires FourDigitYear(publishedAt)
    ensures Due(AddChannel(t, p, c).value, p, c, publishedAt) <==> EarlierFields(Epoch, publishedAt)
  {
    EpochText(Epoch);
    TextOrderIsFieldOrder(Epoch, publishedAt);
  }

  /** One cursor write, `update_most_recent`, taken as a plain assignment to an
      existing row (that function's body is not part of this model). */
  datatype CursorWrite = CursorWrite(key: Key, at: DateTime)

  function WriteCursor(t: Table, w: CursorWrite): (r: Table)
    ensures r.Keys == t.Keys
    ensures w.key in t ==> r[w.key] == IntoSqlite(w.at)
    ensures forall k :: k in t && k != w.key ==> r[k] == t[k]
  {
    if w.key in t then t[w.key := IntoSqlite(w.at)] else t
  }

  /** Applies writes in order. */
  function ApplyWrites(t: Table, ws: seq<CursorWrite>): (r: Table)
    ensures r.Keys == t.Keys
    decreases |ws|
  {
    if |ws| == 0 then t else ApplyWrites(WriteCursor(t, ws[0]), ws[1..])
  }

  /** The last write to a row decides its cursor, whatever the order of the
      timestamps written before it. */
  lemma {:induction false} LastWriteWins(t: Table, ws: seq<CursorWrite>, w: CursorWrite)
    requires w.key in t
    ensures ApplyWrites(t, ws + [w])[w.key] == IntoSqlite(w.at)
    decreases |ws|
  {
    if |ws| == 0 {
      assert ws + [w] == [w];
      assert [w][1..] == [];
    } else {
      assert (ws + [w])[1..] == ws[1..] + [w];
      LastWriteWins(WriteCursor(t, ws[0]), ws[1..], w);
    }
  }
}

=== FILE: textorder.dfy ===
/** The order SQLite uses for `TEXT < TEXT` under its default BINARY collation:
    the strings are compared as UTF-8 bytes with `memcmp`, a proper prefix being
    smaller. UTF-8 byte order coincides with code-point order, so comparing
    `char`s directly is the same order. */
module TextOrder {

  import opened Decimal

  predicate Less(a: seq<char>, b: seq<char>)
    decreases |a|
  {
    if |a| == 0 then |b| > 0
    else if |b| == 0 then false
    else if a[0] != b[0] then a[0] < b[0]
    else Less(a[1..], b[1..])
  }

  lemma {:induction false} LessIrreflexive(a: seq<char>)
    ensures !Less(a, a)
    decreases |a|
  {
    if |a| > 0 {
      LessIrreflexive(a[1..]);
    }
  }

  /** Comparing two strings that start with equally long heads: the heads
      decide, and only when they are equal do the tails. */
  lemma {:induction false} LessConcat(a: seq<char>, b: seq<char>, c: seq<char>, d: seq<char>)
    requires |a| == |b|
    ensures Less(a + c, b + d) <==> Less(a, b) || (a == b && Less(c, d))
    decreases |a|
  {
    if |a| == 0 {
      assert a + c == c;
      assert b + d == d;
    } else {
      assert (a + c)[1..] == a[1..] + c;
      assert (b + d)[1..] == b[1..] + d;
      LessConcat(a[1..], b[1..], c, d);
      if a[0] == b[0] {
        assert a == b <==> a[1..] == b[1..] by {
          if a[1..] == b[1..] {
            assert a == [a[0]] + a[1..];
            assert b == [b[0]] + b[1..];
          }
        }
      }
    }
  }

  /** Zero-padded numbers of one width compare as text exactly as they compare
      as numbers. */
  lemma {:induction false} LessPadded(x: nat, y: nat, width: nat)
    requires x < Pow10(width) && y < Pow10(width)
    ensures Less(Padded(x, width), Padded(y, width)) <==> x < y
    ensures Padded(x, width) == Padded(y, width) <==> x == y
  {
    ParsePadded(x, width);
    ParsePadded(y, width);
    if width == 0 {
    } else {
      var hx, hy := Padded(x / 10, width - 1), Padded(y / 10, width - 1);
      var dx, dy := DigitChar(x % 10), DigitChar(y % 10);
      LessPadded(x / 10, y / 10, width - 1);
      LessConcat(hx, hy, [dx], [dy]);
      assert Less([dx], [dy]) <==> x % 10 < y % 10 by {
        assert [dx][1..] == [];
      }
      assert x == 10 * (x / 10) + x % 10;
      assert y == 10 * (y / 10) + y % 10;
    }
  }

  /** Two renderings that share a separator after equally long heads. */
  lemma LessCons(ha: seq<char>, hb: seq<char>, sep: char, ra: seq<char>, rb: seq<char>)
    requires |ha| == |hb|
    ensures Less(ha + ([sep] + ra), hb + ([sep] + rb)) <==> Less(ha, hb) || (ha == hb && Less(ra, rb))
    ensures ha + ([sep] + ra) == hb + ([sep] + rb) <==> ha == hb && ra == rb
  {
    LessConcat(ha, hb, [sep] + ra, [sep] + rb);
    LessConcat([sep], [sep], ra, rb);
    LessIrreflexive([sep]);
    if ha + ([sep] + ra) == hb + ([sep] + rb) {
      assert (ha + ([sep] + ra))[..|ha|] == ha;
      assert (hb + ([sep] + rb))[..|hb|] == hb;
      assert (ha + ([sep] + ra))[|ha| + 1..] == ra;
      assert (hb + ([sep] + rb))[|hb| + 1..] == rb;
    }
  }
}

=== FILE: timestamp.dfy ===
/** The timestamps of `src/db.rs`: a UTC date-time of the chrono library, its
    text form in the `most_recent` column (`into_sqlite`) and the way back
    (`from_sqlite`).

    `into_sqlite` takes chrono's RFC 3339 rendering at seconds precision with a
    `Z` suffix, strips trailing `Z`s and replaces every `T` by a space, giving
    `YYYY-MM-DD HH:MM:SS`: RFC 3339's `full-date` and `partial-time` joined by
    a space, with no `time-offset`, which is SQLite's `DATETIME()` form. */
module Timestamp {

  import opened Outcomes
  import opened Decimal
  import TextOrder

  // ---------------------------------------------------------------------------
  // Calendar
  // ---------------------------------------------------------------------------

  /** Proleptic Gregorian leap years, as chrono counts them. */
  predicate IsLeapYear(y: int) {
    y % 4 == 0 && (y % 100 != 0 || y % 400 == 0)
  }

  function DaysInMonth(y: int, m: int): (n: int)
    requires 1 <= m <= 12
    ensures 28 <= n <= 31
  {
    if m == 2 then (if IsLeapYear(y) then 29 else 28)
    else if m == 4 || m == 6 || m == 9 || m == 11 then 30
    else 31
  }

  /** Calendar fields of a UTC date-time; `nano` is the sub-second part. */
  datatype Civil = Civil(year: int, month: int, day: int, hour: int, minute: int, second: int, nano: int)

  /** chrono's representable years. */
  const MinYear: int := -262144
  const MaxYear: int := 262143

  /** The invariant every chrono `DateTime<Utc>` keeps (leap seconds are not
      modelled, so `nano` stays below one second). */
  predicate ValidCivil(c: Civil) {
    && MinYear <= c.year <= MaxYear
    && 1 <= c.month <= 12
    && 1 <= c.day <= DaysInMonth(c.year, c.month)
    && 0 <= c.hour < 24
    && 0 <= c.minute < 60
    && 0 <= c.second < 60
    && 0 <= c.nano < 1_000_000_000
  }

  type DateTime = c: Civil | ValidCivil(c) witness Civil(1970, 1, 1, 0, 0, 0, 0)

  /** `DateTime::default()` for `Utc`: the Unix epoch. */
  const Epoch: DateTime := Civil(1970, 1, 1, 0, 0, 0, 0)

  /** The same instant with the sub-second part dropped. */
  function Truncated(d: DateTime): (t: DateTime)
    ensures t.nano == 0
    ensures t == d.(nano := 0)
  {
    d.(nano := 0)
  }

  /** True when the year renders as exactly four digits. */
  predicate FourDigitYear(d: DateTime) {
    0 <= d.year <= 9999
  }

  // ---------------------------------------------------------------------------
  // Chronological order at seconds precision (years from 0 on)
  // ---------------------------------------------------------------------------

  /** Days from the first of January of year `y` to the first day of month `m`. */
  function DaysBeforeMonth(y: int, m: int): (n: nat)
    requires 1 <= m <= 13
  {
    if m == 1 then 0 else DaysBeforeMonth(y, m - 1) + DaysInMonth(y, m - 1)
  }

  /** Days from 0000-01-01 to the first of January of year `y`. */
  function DaysBeforeYear(y: nat): nat {
    if y == 0 then 0 else DaysBeforeYear(y - 1) + DaysBeforeMonth(y - 1, 13)
  }

  /** Days from 0000-01-01 to the date of `d`. */
  function DayNumber(d: DateTime): nat
    requires d.year >= 0
  {
    DaysBeforeYear(d.year) + DaysBeforeMonth(d.year, d.month) + d.day - 1
  }

  function SecondOfDay(d: DateTime): (s: nat)
    ensures s < 86400
  {
    d.hour * 3600 + d.minute * 60 + d.second
  }

  /** Whole seconds from 0000-01-01 00:00:00 to `d`; the sub-second part is dropped. */
  function Seconds(d: DateTime): nat
    requires d.year >= 0
  {
    DayNumber(d) * 86400 + SecondOfDay(d)
  }

  // ---------------------------------------------------------------------------
  // Text layout
  // ---------------------------------------------------------------------------

  /** Year, month, day, hour, minute, second: the six printed fields. */
  function Fields(d: DateTime): (v: seq<int>)
    ensures |v| == 6
  {
    [d.year, d.month, d.day, d.hour, d.minute, d.second]
  }

  /** Printed width of field `k`. */
  function Width(k: nat): nat {
    if k == 0 then 4 else 2
  }

  /** The separator printed after field `k`; `dateTime` stands between the
      date and the time. */
  function Separator(k: nat, dateTime: char): char {
    if k < 2 then '-' else if k == 2 then dateTime else ':'
  }

  /** The separators chrono's RFC 3339 parser accepts after field `k`. */
  predicate SeparatorAccepted(k: nat, c: char) {
    if k < 2 then c == '-' else if k == 2 then c == 'T' || c == 't' || c == ' ' else c == ':'
  }

  /** Fields `k..5` fit their printed widths. */
  predicate InRange(v: seq<int>, k: nat) {
    forall i :: 0 <= i < |v| ==> 0 <= v[i] < Pow10(Width(k + i))
  }

  /** Fields `k..5`, zero-padded to their widths and joined by their separators. */
  function Render(v: seq<int>, k: nat, dateTime: char): (s: seq<char>)
    requires k < 6 && |v| == 6 - k
    requires forall i :: 0 <= i < |v| ==> v[i] >= 0
    ensures |s| == 3 * (6 - k) - 1 + (if k == 0 then 2 else 0)
    decreases 6 - k
  {
    Padded(v[0], Width(k)) + (if k == 5 then [] else [Separator(k, dateTime)] + Render(v[1..], k + 1, dateTime))
  }

  lemma {:induction false} RenderEndsInDigit(v: seq<int>, k: nat, dateTime: char)
    requires k < 6 && |v| == 6 - k
    requires forall i :: 0 <= i < |v| ==> v[i] >= 0
    ensures var s := Render(v, k, dateTime); IsDigit(s[|s| - 1])
    decreases 6 - k
  {
    var head := Padded(v[0], Width(k));
    if k < 5 {
      var rest := Render(v[1..], k + 1, dateTime);
      RenderEndsInDigit(v[1..], k + 1, dateTime);
      assert Render(v, k, dateTime) == head + ([Separator(k, dateTime)] + rest);
    } else {
      assert Render(v, k, dateTime) == head;
    }
  }

  /** chrono's year rendering: four digits for years 0..9999, otherwise a sign
      followed by at least four digits (Rust's `{:+05}`). */
  function YearText(y: int): (s: seq<char>)
    ensures 0 <= y <= 9999 ==> s == Padded(y, 4) && ParseDigits(s) == y
    ensures !(0 <= y <= 9999) ==>
      |s| >= 5 && (s[0] == '+' || s[0] == '-') && (s[0] == '+' <==> y > 9999)
      && AllDigits(s[1..]) && ParseDigits(s[1..]) == if y < 0 then -y else y
  {
    if 0 <= y <= 9999 then (ParsePadded(y, 4); Padded(y, 4))
    else if y > 9999 then (DigitsLength(y, 4); ParseDigitsOf(y); SignedText('+', Digits(y)))
    else if -y <= 9999 then (ParsePadded(-y, 4); SignedText('-', Padded(-y, 4)))
    else (DigitsLength(-y, 4); ParseDigitsOf(-y); SignedText('-', Digits(-y)))
  }

  /** A sign followed by digits; the digits are what follows the sign. */
  function SignedText(sign: char, digits: seq<char>): (s: seq<char>)
    ensures |s| == |digits| + 1 && s[0] == sign && s[1..] == digits
  {
    [sign] + digits
  }

  /** `to_rfc3339_opts(SecondsFormat::Secs, true)`. */
  function Rfc3339Secs(d: DateTime): seq<char> {
    YearText(d.year) + ['-'] + Render(Fields(d)[1..], 1, 'T') + ['Z']
  }

  /** `trim_end_matches(c)`: drops every trailing `c`. */
  function TrimEnd(s: seq<char>, c: char): (r: seq<char>)
    ensures |r| <= |s| && r == s[..|r|]
  {
    if |s| > 0 && s[|s| - 1] == c then TrimEnd(s[..|s| - 1], c) else s
  }

  /** `replace(from, to)` for single characters: every occurrence is replaced. */
  function Replace(s: seq<char>, from: char, to: char): (r: seq<char>)
    ensures |r| == |s|
  {
    if |s| == 0 then [] else [if s[0] == from then to else s[0]] + Replace(s[1..], from, to)
  }

  /** The `most_recent` text of a date-time. */
  function IntoSqlite(d: DateTime): (s: seq<char>)
    ensures FourDigitYear(d) ==> s == Render(Fields(d), 0, ' ') && |s| == 19
    ensures !FourDigitYear(d) ==> |s| >= 20 && (s[0] == '+' || s[0] == '-')
  {
    var s := Replace(TrimEnd(Rfc3339Secs(d), 'Z'), 'T', ' ');
    IntoSqliteLayout(d);
    s
  }

  lemma IntoSqliteLayout(d: DateTime)
    ensures var s := Replace(TrimEnd(Rfc3339Secs(d), 'Z'), 'T', ' ');
      && (FourDigitYear(d) ==> s == Render(Fields(d), 0, ' '))
      && (!FourDigitYear(d) ==> |s| >= 20 && (s[0] == '+' || s[0] == '-'))
  {
    TrimmedRfc3339(d);
    ReplacedRfc3339(d);
    if FourDigitYear(d) {
      RenderFourDigitYear(d);
    }
  }

  lemma RenderFourDigitYear(d: DateTime)
    requires FourDigitYear(d)
    ensures YearText(d.year) + ['-'] + Render(Fields(d)[1..], 1, ' ') == Render(Fields(d), 0, ' ')
  {
    assert Fields(d) == [d.year] + Fields(d)[1..];
  }

  lemma TrimmedRfc3339(d: DateTime)
    ensures TrimEnd(Rfc3339Secs(d), 'Z') == YearText(d.year) + ['-'] + Render(Fields(d)[1..], 1, 'T')
  {
    var tail := Render(Fields(d)[1..], 1, 'T');
    var body := YearText(d.year) + ['-'] + tail;
    RenderEndsInDigit(Fields(d)[1..], 1, 'T');
    assert body[|body| - 1] == tail[|tail| - 1];
    TrimLastOnce(body, 'Z');
  }

  lemma ReplacedRfc3339(d: DateTime)
    ensures Replace(YearText(d.year) + ['-'] + Render(Fields(d)[1..], 1, 'T'), 'T', ' ')
         == YearText(d.year) + ['-'] + Render(Fields(d)[1..], 1, ' ')
  {
    var v := Fields(d)[1..];
    var year := YearText(d.year) + ['-'];
    ReplaceConcat(year, Render(v, 1, 'T'), 'T', ' ');
    ReplaceRender(v, 1);
    assert forall i :: 0 <= i < |year| ==> year[i] != 'T';
    ReplaceAbsent(year, 'T', ' ');
  }

  lemma TrimLastOnce(s: seq<char>, c: char)
    requires |s| > 0 && s[|s| - 1] != c
    ensures TrimEnd(s + [c], c) == s
  {
    assert (s + [c])[..|s|] == s;
  }

  lemma {:induction false} ReplaceConcat(a: seq<char>, b: seq<char>, from: char, to: char)
    ensures Replace(a + b, from, to) == Replace(a, from, to) + Replace(b, from, to)
  {
    if |a| > 0 {
      assert (a + b)[1..] == a[1..] + b;
      ReplaceConcat(a[1..], b, from, to);
    } else {
      assert a + b == b;
    }
  }

  lemma {:induction false} ReplaceAbsent(s: seq<char>, from: char, to: char)
    requires forall i :: 0 <= i < |s| ==> s[i] != from
    ensures Replace(s, from, to) == s
  {
    if |s| > 0 {
      ReplaceAbsent(s[1..], from, to);
      assert s == [s[0]] + s[1..];
    }
  }

  /** Replacing `T` by a space turns the `T`-separated layout into the
      space-separated one. */
  lemma {:induction false} ReplaceRender(v: seq<int>, k: nat)
    requires k < 6 && |v| == 6 - k
    requires forall i :: 0 <= i < |v| ==> v[i] >= 0
    ensures Replace(Render(v, k, 'T'), 'T', ' ') == Render(v, k, ' ')
    decreases 6 - k
  {
    var head := Padded(v[0], Width(k));
    ReplaceAbsent(head, 'T', ' ');
    if k < 5 {
      ReplaceRender(v[1..], k + 1);
      ReplaceConcat(head, [Separator(k, 'T')] + Render(v[1..], k + 1, 'T'), 'T', ' ');
      ReplaceConcat([Separator(k, 'T')], Render(v[1..], k + 1, 'T'), 'T', ' ');
    } else {
      assert Render(v, k, 'T') == head;
    }
  }

  // ---------------------------------------------------------------------------
  // Parsing (`from_sqlite`)
  // ---------------------------------------------------------------------------

  /** chrono's RFC 3339 reader restricted to what this model accepts: fields
      `k..5` of fixed width, each followed by an accepted separator, the last
      one by `Z`. */
  function ParseFields(t: seq<char>, k: nat): (r: Option<seq<int>>)
    requires k < 6
    ensures r.Some? ==> |r.value| == 6 - k && forall i :: 0 <= i < |r.value| ==> r.value[i] >= 0
    decreases 6 - k
  {
    var w := Width(k);
    if |t| < w || !AllDigits(t[..w]) then None
    else
      var n := ParseDigits(t[..w]);
      if k == 5 then
        (if t[w..] == ['Z'] then Some([n]) else None)
      else if |t| > w && SeparatorAccepted(k, t[w]) then
        match ParseFields(t[w + 1..], k + 1)
        case None => None
        case Some(rest) => Some([n] + rest)
      else None
  }

  /** `from_sqlite`: parse the text with a `Z` appended. `None` stands for the
      `unwrap` panic on text chrono rejects. */
  function FromSqlite(s: seq<char>): (r: Option<DateTime>)
    ensures r.Some? ==> r.value.nano == 0
  {
    match ParseFields(s + ['Z'], 0)
    case None => None
    case Some(v) =>
      var c := Civil(v[0], v[1], v[2], v[3], v[4], v[5], 0);
      if ValidCivil(c) then Some(c) else None
  }

  lemma {:induction false} ParseRender(v: seq<int>, k: nat)
    requires k < 6 && |v| == 6 - k
    requires InRange(v, k)
    ensures ParseFields(Render(v, k, ' ') + ['Z'], k) == Some(v)
    decreases 6 - k
  {
    assert 0 <= v[0] < Pow10(Width(k + 0));
    if k < 5 {
      var rest := Render(v[1..], k + 1, ' ') + ['Z'];
      RenderCons(v, k, ' ');
      assert Render(v, k, ' ') + ['Z'] == Padded(v[0], Width(k)) + ([Separator(k, ' ')] + rest);
      InRangeTail(v, k);
      ParseRender(v[1..], k + 1);
      ParseFieldsCons(v[0], k, Separator(k, ' '), rest, v[1..]);
      assert [v[0]] + v[1..] == v;
    } else {
      RenderLast(v, ' ');
      ParseFieldsEnd(v[0]);
      assert v == [v[0]];
    }
  }

  lemma RenderCons(v: seq<int>, k: nat, dateTime: char)
    requires k < 5 && |v| == 6 - k
    requires forall i :: 0 <= i < |v| ==> v[i] >= 0
    ensures Render(v, k, dateTime)
         == Padded(v[0], Width(k)) + ([Separator(k, dateTime)] + Render(v[1..], k + 1, dateTime))
  {
  }

  lemma RenderLast(v: seq<int>, dateTime: char)
    requires |v| == 1 && v[0] >= 0
    ensures Render(v, 5, dateTime) == Padded(v[0], 2)
  {
  }

  lemma ParseFieldsCons(n: int, k: nat, sep: char, rest: seq<char>, vals: seq<int>)
    requires k < 5 && 0 <= n < Pow10(Width(k))
    requires SeparatorAccepted(k, sep)
    requires ParseFields(rest, k + 1) == Some(vals)
    ensures ParseFields(Padded(n, Width(k)) + ([sep] + rest), k) == Some([n] + vals)
  {
    var w := Width(k);
    var head := Padded(n, w);
    var t := head + ([sep] + rest);
    SliceCons(head, sep, rest);
    ParsePadded(n, w);
    ParseFieldsStep(t, k, vals);
  }

  lemma SliceCons(head: seq<char>, sep: char, rest: seq<char>)
    ensures var t := head + ([sep] + rest);
      && t[..|head|] == head && t[|head|] == sep && t[|head| + 1..] == rest
  {
  }

  lemma ParseFieldsEnd(n: int)
    requires 0 <= n < 100
    ensures ParseFields(Padded(n, 2) + ['Z'], 5) == Some([n])
  {
    var t := Padded(n, 2) + ['Z'];
    assert t[..2] == Padded(n, 2);
    assert t[2..] == ['Z'];
    assert Pow10(2) == 100;
    ParsePadded(n, 2);
    ParseFieldsLast(t);
  }

  lemma ParseFieldsStep(t: seq<char>, k: nat, rest: seq<int>)
    requires k < 5 && |t| > Width(k) && AllDigits(t[..Width(k)]) && SeparatorAccepted(k, t[Width(k)])
    requires ParseFields(t[Width(k) + 1..], k + 1) == Some(rest)
    ensures ParseFields(t, k) == Some([ParseDigits(t[..Width(k)])] + rest)
  {
  }

  lemma ParseFieldsLast(t: seq<char>)
    requires |t| >= 2 && AllDigits(t[..2]) && t[2..] == ['Z']
    ensures ParseFields(t, 5) == Some([ParseDigits(t[..2])])
  {
  }

  lemma InRangeTail(v: seq<int>, k: nat)
    requires 0 < |v| && InRange(v, k)
    ensures InRange(v[1..], k + 1)
  {
    forall i | 0 <= i < |v[1..]|
      ensures 0 <= v[1..][i] < Pow10(Width(k + 1 + i))
    {
      assert v[1..][i] == v[i + 1];
    }
  }

  /** `from_sqlite(into_sqlite(d))` is `d` cut to whole seconds for years
      0..9999; for other years chrono's reader rejects the signed year and
      `from_sqlite` panics. */
  lemma RoundTrip(d: DateTime)
    ensures FourDigitYear(d) ==> FromSqlite(IntoSqlite(d)) == Some(Truncated(d))
    ensures !FourDigitYear(d) ==> FromSqlite(IntoSqlite(d)) == None
  {
    var s := IntoSqlite(d);
    if FourDigitYear(d) {
      FieldsInRange(d);
      ParseRender(Fields(d), 0);
    } else {
      var t := s + ['Z'];
      assert |t| >= 4 && !IsDigit(t[0]);
      assert !AllDigits(t[..4]);
    }
  }

  /** The `YYYY-MM-DD HH:MM:SS` layout, field by field. */
  lemma IntoSqliteShape(d: DateTime)
    requires FourDigitYear(d)
    ensures IntoSqlite(d) == Padded(d.year, 4) + ("-" + (Padded(d.month, 2) + ("-" + (Padded(d.day, 2) + (" "
                           + (Padded(d.hour, 2) + (":" + (Padded(d.minute, 2) + (":" + Padded(d.second, 2))))))))))
  {
    var v := Fields(d);
    RenderCons(v, 0, ' ');
    RenderCons(v[1..], 1, ' ');
    assert v[1..][1..] == v[2..];
    RenderCons(v[2..], 2, ' ');
    assert v[2..][1..] == v[3..];
    RenderCons(v[3..], 3, ' ');
    assert v[3..][1..] == v[4..];
    RenderCons(v[4..], 4, ' ');
    assert v[4..][1..] == v[5..];
    RenderLast(v[5..], ' ');
  }

  lemma EpochYearDigits()
    ensures Padded(1970, 4) == "1970"
  {
  }

  lemma EpochFieldDigits()
    ensures Padded(1, 2) == "01"
    ensures Padded(0, 2) == "00"
  {
  }

  /** The text of midnight, 1 January 1970: `DateTime::default()` in the store. */
  lemma EpochText(d: DateTime)
    requires d.year == 1970 && d.month == 1 && d.day == 1 && d.hour == 0 && d.minute == 0 && d.second == 0
    ensures IntoSqlite(d) == "1970-01-01 00:00:00"
  {
    IntoSqliteShape(d);
    EpochYearDigits();
    EpochFieldDigits();
    EpochPieces();
  }

  lemma EpochPieces()
    ensures "1970" + ("-" + ("01" + ("-" + ("01" + (" " + ("00" + (":" + ("00" + (":" + "00")))))))))
         == "1970-01-01 00:00:00"
  {
  }

  // ---------------------------------------------------------------------------
  // Text order against chronological order
  // ---------------------------------------------------------------------------

  /** Lexicographic order on equally long field lists. */
  predicate FieldsBefore(a: seq<int>, b: seq<int>)
    requires |a| == |b|
  {
    |a| > 0 && (a[0] < b[0] || (a[0] == b[0] && FieldsBefore(a[1..], b[1..])))
  }

  lemma {:induction false} LessRender(a: seq<int>, b: seq<int>, k: nat, dateTime: char)
    requires k < 6 && |a| == 6 - k && |b| == 6 - k
    requires InRange(a, k) && InRange(b, k)
    ensures TextOrder.Less(Render(a, k, dateTime), Render(b, k, dateTime)) <==> FieldsBefore(a, b)
    ensures Render(a, k, dateTime) == Render(b, k, dateTime) <==> a == b
    decreases 6 - k
  {
    var w := Width(k);
    assert 0 <= a[0] < Pow10(Width(k + 0));
    assert 0 <= b[0] < Pow10(Width(k + 0));
    TextOrder.LessPadded(a[0], b[0], w);
    assert [a[0]] + a[1..] == a;
    assert [b[0]] + b[1..] == b;
    if k < 5 {
      RenderCons(a, k, dateTime);
      RenderCons(b, k, dateTime);
      InRangeTail(a, k);
      InRangeTail(b, k);
      LessRender(a[1..], b[1..], k + 1, dateTime);
      TextOrder.LessCons(Padded(a[0], w), Padded(b[0], w), Separator(k, dateTime),
                         Render(a[1..], k + 1, dateTime), Render(b[1..], k + 1, dateTime));
    } else {
      RenderLast(a, dateTime);
      RenderLast(b, dateTime);
      assert !FieldsBefore(a[1..], b[1..]);
    }
  }

  /** Field-by-field comparison of two date-times at seconds precision. */
  predicate EarlierFields(a: DateTime, b: DateTime) {
    || a.year < b.year
    || (a.year == b.year && a.month < b.month)
    || (a.year == b.year && a.month == b.month && a.day < b.day)
    || (a.year == b.year && a.month == b.month && a.day == b.day && a.hour < b.hour)
    || (a.year == b.year && a.month == b.month && a.day == b.day && a.hour == b.hour && a.minute < b.minute)
    || (a.year == b.year && a.month == b.month && a.day == b.day && a.hour == b.hour && a.minute == b.minute
        && a.second < b.second)
  }

  lemma FieldsBeforeUnfolds(a: DateTime, b: DateTime)
    ensures FieldsBefore(Fields(a), Fields(b)) <==> EarlierFields(a, b)
  {
    var x, y := Fields(a), Fields(b);
    var x1, y1 := [a.month, a.day, a.hour, a.minute, a.second], [b.month, b.day, b.hour, b.minute, b.second];
    var x2, y2 := [a.day, a.hour, a.minute, a.second], [b.day, b.hour, b.minute, b.second];
    var x3, y3 := [a.hour, a.minute, a.second], [b.hour, b.minute, b.second];
    var x4, y4 := [a.minute, a.second], [b.minute, b.second];
    var x5, y5 := [a.second], [b.second];
    assert x[1..] == x1 && y[1..] == y1;
    assert x1[1..] == x2 && y1[1..] == y2;
    assert x2[1..] == x3 && y2[1..] == y3;
    assert x3[1..] == x4 && y3[1..] == y4;
    assert x4[1..] == x5 && y4[1..] == y5;
    assert !FieldsBefore(x5[1..], y5[1..]);
    assert FieldsBefore(x5, y5) <==> a.second < b.second;
    assert FieldsBefore(x4, y4) <==> a.minute < b.minute || (a.minute == b.minute && FieldsBefore(x5, y5));
    assert FieldsBefore(x3, y3) <==> a.hour < b.hour || (a.hour == b.hour && FieldsBefore(x4, y4));
    assert FieldsBefore(x2, y2) <==> a.day < b.day || (a.day == b.day && FieldsBefore(x3, y3));
    assert FieldsBefore(x1, y1) <==> a.month < b.month || (a.month == b.month && FieldsBefore(x2, y2));
  }

  lemma {:induction false} DaysBeforeMonthGrows(y: int, m1: int, m2: int)
    requires 1 <= m1 <= m2 <= 13
    ensures DaysBeforeMonth(y, m1) <= DaysBeforeMonth(y, m2)
    decreases m2 - m1
  {
    if m1 < m2 {
      DaysBeforeMonthGrows(y, m1, m2 - 1);
    }
  }

  lemma {:induction false} DaysBeforeYearGrows(y1: nat, y2: nat)
    requires y1 <= y2
    ensures DaysBeforeYear(y1) <= DaysBeforeYear(y2)
    decreases y2 - y1
  {
    if y1 < y2 {
      DaysBeforeYearGrows(y1, y2 - 1);
    }
  }

  /** A date's day number lies inside its year. */
  lemma DayNumberWithinYear(d: DateTime)
    requires d.year >= 0
    ensures DaysBeforeYear(d.year) <= DayNumber(d) < DaysBeforeYear(d.year + 1)
  {
    DaysBeforeMonthGrows(d.year, d.month + 1, 13);
  }

  lemma EarlierDayEarlierSecond(a: DateTime, b: DateTime)
    requires a.year >= 0 && b.year >= 0
    requires DayNumber(a) < DayNumber(b)
    ensures Seconds(a) < Seconds(b)
  {
    assert DayNumber(a) * 86400 + 86400 <= DayNumber(b) * 86400;
  }

  lemma EarlierFieldsEarlierSecond(a: DateTime, b: DateTime)
    requires a.year >= 0 && b.year >= 0
    requires EarlierFields(a, b)
    ensures Seconds(a) < Seconds(b)
  {
    if a.year < b.year {
      DayNumberWithinYear(a);
      DayNumberWithinYear(b);
      DaysBeforeYearGrows(a.year + 1, b.year);
      EarlierDayEarlierSecond(a, b);
    } else if a.year == b.year && a.month < b.month {
      DaysBeforeMonthGrows(a.year, a.month + 1, b.month);
      EarlierDayEarlierSecond(a, b);
    } else if a.year == b.year && a.month == b.month && a.day < b.day {
      EarlierDayEarlierSecond(a, b);
    } else {
      assert DayNumber(a) == DayNumber(b);
    }
  }

  /** For four-digit years, SQLite's text `<` on `into_sqlite` strings is the
      chronological order at seconds precision, and equal strings are the same
      second. This is what the `most_recent < $2` filter relies on. */
  lemma TextOrderIsChronological(a: DateTime, b: DateTime)
    requires FourDigitYear(a) && FourDigitYear(b)
    ensures TextOrder.Less(IntoSqlite(a), IntoSqlite(b)) <==> Seconds(a) < Seconds(b)
    ensures IntoSqlite(a) == IntoSqlite(b) <==> Seconds(a) == Seconds(b)
  {
    TextOrderIsFieldOrder(a, b);
    FieldsOrderIsChronological(a, b);
  }

  /** The same comparison stated on the calendar fields. */
  lemma TextOrderIsFieldOrder(a: DateTime, b: DateTime)
    requires FourDigitYear(a) && FourDigitYear(b)
    ensures TextOrder.Less(IntoSqlite(a), IntoSqlite(b)) <==> EarlierFields(a, b)
    ensures IntoSqlite(a) == IntoSqlite(b) <==> Fields(a) == Fields(b)
  {
    FieldsInRange(a);
    FieldsInRange(b);
    LessRender(Fields(a), Fields(b), 0, ' ');
    FieldsBeforeUnfolds(a, b);
  }

  lemma FieldsInRange(d: DateTime)
    requires FourDigitYear(d)
    ensures InRange(Fields(d), 0)
  {
    assert Pow10(4) == 10000;
    assert Pow10(2) == 100;
  }

  lemma FieldsOrderIsChronological(a: DateTime, b: DateTime)
    requires a.year >= 0 && b.year >= 0
    ensures EarlierFields(a, b) <==> Seconds(a) < Seconds(b)
    ensures Fields(a) == Fields(b) <==> Seconds(a) == Seconds(b)
  {
    if EarlierFields(a, b) {
      EarlierFieldsEarlierSecond(a, b);
    } else if EarlierFields(b, a) {
      EarlierFieldsEarlierSecond(b, a);
    } else {
      assert Fields(a) == Fields(b);
    }
  }
}

=== FILE: update_loop.dfy ===
/** The polling pipeline of `src/update_loop.rs` put together: one playlist
    through `process_playlists` and `assign_workunit_extras` into
    `do_workunits`, and one cycle of `update_loop`. Every outside call is an
    outcome supplied by the caller, so a cycle is a function from the outcomes
    to the workunits, their dispositions and the cursor writes. */
module UpdateLoop {

  import opened Outcomes
  import opened Timestamp
  import opened SubscriptionStore
  import opened Workunits
  import opened Dispatch

  /** `videos.reverse()`: the uploads come newest first. */
  function Reverse<T>(s: seq<T>): (r: seq<T>)
    ensures |r| == |s|
    ensures forall i :: 0 <= i < |s| ==> r[i] == s[|s| - 1 - i]
    decreases |s|
  {
    if |s| == 0 then [] else Reverse(s[1..]) + [s[0]]
  }

  /** The outcomes of the outside calls made for one playlist. */
  datatype PlaylistCalls = PlaylistCalls(
    uploads: Result<seq<Video>>,   // `get_uploads_from_playlist`, newest first
    queries: seq<ChannelQuery>,    // `get_channels_to_send`, one per oldest-first video
    extras: Result<seq<Extras>>,   // `get_videos_extras` on the slice
    effects: seq<Effects>,         // the calls of each workunit, in dispatch order
    retries: seq<bool>)            // `update_most_recent` calls of `resync_db`

  /** The shapes the program relies on: one query per video, one set of
      extras per video of the slice (line 178 indexes them unchecked), and
      one set of outcomes per workunit. */
  predicate CallsFit(p: PlaylistId, c: PlaylistCalls) {
    c.uploads.Ok? ==>
      |c.queries| == |c.uploads.value|
      && (c.extras.Ok? ==> |c.extras.value| == |c.uploads.value| - LeadingSkips(c.queries))
      && |c.effects| == |Pending(p, c.queries)|
  }

  datatype PlaylistOutcome =
    | FetchFailed                                             // uploads could not be fetched
    | NothingNew                                              // empty slice: no extras fetch
    | ExtrasFailed                                            // extras fetch failed: playlist abandoned
    | Ran(workunits: seq<Workunit>, trace: Trace, resync: Resynced)

  /** The cursor writes a playlist made, in order. */
  function WritesOf(o: PlaylistOutcome): seq<CursorWrite> {
    if o.Ran? then BatchWrites(o.trace, o.resync) else []
  }

  /** The playlist gets past the three early exits: its uploads were fetched,
      the slice from `first_index` is not empty and its extras were fetched. */
  predicate Runs(c: PlaylistCalls) {
    c.uploads.Ok? && LeadingSkips(c.queries) < |c.uploads.value| && c.extras.Ok?
  }

  /** The workunits of a playlist that runs: the builder's index workunits,
      remapped into the fetched slice by `assign_workunit_extras`. */
  function RemappedWorkunits(p: PlaylistId, c: PlaylistCalls): (ws: seq<Workunit>)
    requires CallsFit(p, c) && Runs(c)
    ensures Remapped(ws, Reverse(c.uploads.value), LeadingSkips(c.queries), c.extras.value, Pending(p, c.queries))
  {
    IndicesInSlice(p, c.queries);
    Assign(Reverse(c.uploads.value), LeadingSkips(c.queries), c.extras.value, Pending(p, c.queries))
  }

  /** One playlist, from the upload fetch to the drained retry queue. */
  function ProcessPlaylist(p: PlaylistId, c: PlaylistCalls): (o: PlaylistOutcome)
    requires CallsFit(p, c)
    ensures o == FetchFailed <==> c.uploads.Err?
    ensures o == NothingNew <==> c.uploads.Ok? && LeadingSkips(c.queries) == |c.uploads.value|
    ensures o == ExtrasFailed <==>
      c.uploads.Ok? && LeadingSkips(c.queries) < |c.uploads.value| && c.extras.Err?
    ensures o.Ran? <==> Runs(c)
    ensures o.Ran? ==> o.workunits == RemappedWorkunits(p, c)
    ensures o.Ran? ==> |o.workunits| == |Pending(p, c.queries)|
    ensures o.Ran? ==>
      Remapped(o.workunits, Reverse(c.uploads.value), LeadingSkips(c.queries), c.extras.value, Pending(p, c.queries))
    ensures o.Ran? ==> forall k :: 0 <= k < |o.workunits| ==> o.workunits[k].playlist == p
    ensures o.Ran? ==> o.trace == Dispatched(o.workunits, c.effects)
    ensures o.Ran? ==> o.resync == Resync(o.trace.queue, c.retries)
  {
    if c.uploads.Err? then FetchFailed
    else
      var videos := Reverse(c.uploads.value);
      var first := LeadingSkips(c.queries);
      var iws := Pending(p, c.queries);
      if first == |videos| then NothingNew
      else if c.extras.Err? then ExtrasFailed
      else
        PlaylistOfPending(p, c.queries);
        var ws := RemappedWorkunits(p, c);
        var t := Dispatched(ws, c.effects);
        Ran(ws, t, Resync(t.queue, c.retries))
  }

  /** Workunit k of a running playlist carries the extras fetched for its
      own video: the extras were fetched for the slice starting at
      `first_index`, so video `index` finds them at `index - first_index`.
      `ProcessPlaylist` dispatches exactly these workunits. */
  lemma WorkunitCarriesItsExtras(p: PlaylistId, c: PlaylistCalls, k: nat)
    requires CallsFit(p, c) && Runs(c)
    requires k < |RemappedWorkunits(p, c)|
    ensures RemappedWorkunits(p, c)[k].extras
         == c.extras.value[Pending(p, c.queries)[k].index - LeadingSkips(c.queries)]
  {
  }

  lemma PlaylistOfPending(p: PlaylistId, qs: seq<ChannelQuery>)
    ensures forall k :: 0 <= k < |Pending(p, qs)| ==> Pending(p, qs)[k].playlist == p
  {
    var r := Pending(p, qs);
    forall k | 0 <= k < |r|
      ensures r[k].playlist == p
    {
      assert r[k] in r;
    }
  }

  /** The program's own sequence of steps for one playlist, built from the
      builder loop and the workunit loop. */
  method RunPlaylist(p: PlaylistId, c: PlaylistCalls) returns (o: PlaylistOutcome)
    requires CallsFit(p, c)
    ensures o == ProcessPlaylist(p, c)
  {
    if c.uploads.Err? {
      return FetchFailed;
    }
    var videos := Reverse(c.uploads.value);
    var first, iws := BuildIndexWorkunits(p, c.queries);
    if |videos| - first == 0 {
      return NothingNew;
    }
    if c.extras.Err? {
      return ExtrasFailed;
    }
    IndicesInSlice(p, c.queries);
    var ws := Assign(videos, first, c.extras.value, iws);
    var t, r := DoWorkunits(ws, c.effects, c.retries);
    o := Ran(ws, t, r);
  }

  /** Playlists whose slice is empty or whose extras fetch failed make no
      cursor write; an empty slice has no workunit to lose. */
  lemma SkippedPlaylistWritesNothing(p: PlaylistId, c: PlaylistCalls)
    requires CallsFit(p, c)
    requires !ProcessPlaylist(p, c).Ran?
    ensures WritesOf(ProcessPlaylist(p, c)) == []
    ensures ProcessPlaylist(p, c) == NothingNew ==> Pending(p, c.queries) == []
  {
    if ProcessPlaylist(p, c) == NothingNew {
      EmptySliceNoWork(p, c.queries);
    }
  }

  /** With every channel query answered by the store, the workunits of a
      playlist are exactly the (video, channel) pairs the store reports as
      due, in oldest-first video order. */
  lemma PendingAreDue(t: Table, p: PlaylistId, videos: seq<Video>, qs: seq<ChannelQuery>)
    requires |qs| == |videos|
    requires forall i :: 0 <= i < |qs| ==>
      qs[i].Ok? && forall c :: c in qs[i].value <==> Due(t, p, c, videos[i].publishedAt)
    ensures forall iw {:trigger iw in Pending(p, qs)} :: iw in Pending(p, qs) <==>
      iw.playlist == p && iw.index < |videos| && Due(t, p, iw.channel, videos[iw.index].publishedAt)
    ensures IndexOrdered(Pending(p, qs))
  {
    PendingOrdered(p, qs);
  }

  // ---------------------------------------------------------------------------
  // One cycle of `update_loop`
  // ---------------------------------------------------------------------------

  /** The playlists in order, each with its own outcomes. */
  function ProcessAll(ps: seq<PlaylistId>, calls: seq<PlaylistCalls>): (os: seq<PlaylistOutcome>)
    requires |calls| == |ps|
    requires forall i :: 0 <= i < |ps| ==> CallsFit(ps[i], calls[i])
    ensures |os| == |ps|
    ensures forall i :: 0 <= i < |ps| ==> os[i] == ProcessPlaylist(ps[i], calls[i])
    decreases |ps|
  {
    if |ps| == 0 then []
    else [ProcessPlaylist(ps[0], calls[0])] + ProcessAll(ps[1..], calls[1..])
  }

  /** One turn of `update_loop`: a failed or empty `get_playlists` processes
      nothing this turn; otherwise every playlist is processed in order. */
  function PollOnce(playlists: Result<seq<PlaylistId>>, calls: seq<PlaylistCalls>): (os: seq<PlaylistOutcome>)
    requires playlists.Ok? ==> |calls| == |playlists.value|
    requires playlists.Ok? ==> forall i :: 0 <= i < |calls| ==> CallsFit(playlists.value[i], calls[i])
    ensures playlists.Err? ==> os == []
    ensures playlists.Ok? ==> |os| == |playlists.value|
    ensures playlists.Ok? ==> forall i :: 0 <= i < |os| ==> os[i] == ProcessPlaylist(playlists.value[i], calls[i])
  {
    if playlists.Err? || |playlists.value| == 0 then []
    else ProcessAll(playlists.value, calls)
  }

  // ---------------------------------------------------------------------------
  // Scenarios
  // ---------------------------------------------------------------------------

  /** A workunit that gets through the filters. */
  predicate Sendable(w: Workunit) {
    w.extras.liveState != Nonsense && !w.extras.isShort
  }

  const Allow: Filters := Filters(true, true, true)

  lemma DispatchedTwo(w1: Workunit, w2: Workunit, e1: Effects, e2: Effects)
    ensures var d1, d2 := Dispose(w1, e1), Dispose(w2, e2);
      Dispatched([w1, w2], [e1, e2])
      == Trace([d1, d2], QueueEntry(w1, d1) + QueueEntry(w2, d2), WriteEntry(w1, d1) + WriteEntry(w2, d2))
  {
    var d1, d2 := Dispose(w1, e1), Dispose(w2, e2);
    DispatchedSnoc([], [], w1, e1);
    DispatchedSnoc([w1], [e1], w2, e2);
    assert [w1, w2] == [w1] + [w2] && [e1, e2] == [e1] + [e2];
    assert [w1] == [] + [w1] && [e1] == [] + [e1];
    assert Dispatched([w1], [e1]) == Trace([d1], QueueEntry(w1, d1), WriteEntry(w1, d1));
  }

  lemma DisposeSendable(w: Workunit, m: MessageId, writeOk: bool, deleteOk: bool)
    requires Sendable(w)
    ensures Dispose(w, Effects(Ok(Allow), Ok(m), writeOk, deleteOk)) == UpdateDbEntry(Some(m), writeOk, deleteOk)
  {
  }

  /** After two writes to one row, the row holds the second timestamp. */
  lemma SecondWriteDecides(t: Table, a: CursorWrite, b: CursorWrite)
    requires a.key == b.key && a.key in t
    ensures ApplyWrites(t, [a, b])[b.key] == IntoSqlite(b.at)
  {
    assert [a, b] == [a] + [b];
    LastWriteWins(t, [a], b);
  }

  /** Both sends and both cursor writes succeed: two `Written` dispositions,
      nothing queued, both cursor writes in order. */
  lemma BothWrittenSteps(w1: Workunit, w2: Workunit, m1: MessageId, m2: MessageId)
    requires Sendable(w1) && Sendable(w2)
    ensures var d1, d2 := Dispose(w1, Effects(Ok(Allow), Ok(m1), true, true)), Dispose(w2, Effects(Ok(Allow), Ok(m2), true, true));
      [d1, d2] == [Written(Some(m1)), Written(Some(m2))]
      && QueueEntry(w1, d1) + QueueEntry(w2, d2) == []
      && WriteEntry(w1, d1) + WriteEntry(w2, d2) == [WriteOf(w1), WriteOf(w2)]
  {
    DisposeSendable(w1, m1, true, true);
    DisposeSendable(w2, m2, true, true);
    assert [WriteOf(w1)] + [WriteOf(w2)] == [WriteOf(w1), WriteOf(w2)];
  }

  /** The workunit loop when both sends and both cursor writes succeed. */
  lemma BothWritten(w1: Workunit, w2: Workunit, m1: MessageId, m2: MessageId)
    requires Sendable(w1) && Sendable(w2)
    ensures Dispatched([w1, w2], [Effects(Ok(Allow), Ok(m1), true, true), Effects(Ok(Allow), Ok(m2), true, true)])
         == Trace([Written(Some(m1)), Written(Some(m2))], [], [WriteOf(w1), WriteOf(w2)])
  {
    DispatchedTwo(w1, w2, Effects(Ok(Allow), Ok(m1), true, true), Effects(Ok(Allow), Ok(m2), true, true));
    BothWrittenSteps(w1, w2, m1, m2);
  }

  /** The first cursor write and its delete fail, the second workunit goes
      through: the first is queued, only the second cursor write is made. */
  lemma FirstQueuedSteps(w1: Workunit, w2: Workunit, m1: MessageId, m2: MessageId)
    requires Sendable(w1) && Sendable(w2)
    ensures var d1, d2 := Dispose(w1, Effects(Ok(Allow), Ok(m1), false, false)), Dispose(w2, Effects(Ok(Allow), Ok(m2), true, true));
      [d1, d2] == [Queued(m1), Written(Some(m2))]
      && QueueEntry(w1, d1) + QueueEntry(w2, d2) == [w1]
      && WriteEntry(w1, d1) + WriteEntry(w2, d2) == [WriteOf(w2)]
  {
    DisposeSendable(w1, m1, false, false);
    DisposeSendable(w2, m2, true, true);
    assert [w1] + [] == [w1] && [] + [WriteOf(w2)] == [WriteOf(w2)];
  }

  /** The workunit loop when the first cursor write and its delete fail and
      the second workunit goes through. */
  lemma FirstQueued(w1: Workunit, w2: Workunit, m1: MessageId, m2: MessageId)
    requires Sendable(w1) && Sendable(w2)
    ensures Dispatched([w1, w2], [Effects(Ok(Allow), Ok(m1), false, false), Effects(Ok(Allow), Ok(m2), true, true)])
         == Trace([Queued(m1), Written(Some(m2))], [w1], [WriteOf(w2)])
  {
    DispatchedTwo(w1, w2, Effects(Ok(Allow), Ok(m1), false, false), Effects(Ok(Allow), Ok(m2), true, true));
    FirstQueuedSteps(w1, w2, m1, m2);
  }

  /** Two new videos for one subscription, every call succeeding: both are
      posted and the cursor ends at the later one, so neither is due again. */
  lemma TwoVideosPosted(t: Table, w1: Workunit, w2: Workunit, m1: MessageId, m2: MessageId)
    requires w1.playlist == w2.playlist && w1.channel == w2.channel
    requires Key(w1.playlist, w1.channel) in t
    requires Sendable(w1) && Sendable(w2)
    requires FourDigitYear(w1.video.publishedAt) && FourDigitYear(w2.video.publishedAt)
    requires Seconds(w1.video.publishedAt) <= Seconds(w2.video.publishedAt)
    ensures var tr := Dispatched([w1, w2], [Effects(Ok(Allow), Ok(m1), true, true), Effects(Ok(Allow), Ok(m2), true, true)]);
      tr.ds == [Written(Some(m1)), Written(Some(m2))]
      && tr.writes == [WriteOf(w1), WriteOf(w2)]
      && !Due(ApplyWrites(t, tr.writes), w1.playlist, w1.channel, w1.video.publishedAt)
      && !Due(ApplyWrites(t, tr.writes), w1.playlist, w1.channel, w2.video.publishedAt)
  {
    BothWritten(w1, w2, m1, m2);
    var writes := [WriteOf(w1), WriteOf(w2)];
    SecondWriteDecides(t, WriteOf(w1), WriteOf(w2));
    var after := ApplyWrites(t, writes);
    DueIffCursorEarlier(after, w1.playlist, w1.channel, w2.video.publishedAt, w1.video.publishedAt);
    DueIffCursorEarlier(after, w1.playlist, w1.channel, w2.video.publishedAt, w2.video.publishedAt);
  }

  /** The retry queue can move a cursor backwards. The older video's cursor
      write and its delete both fail, so it is queued; the newer video is
      recorded; the retry then writes the older timestamp last, and the newer
      video is due again on the next poll although its message was posted.
      The program's `update_most_recent` is not part of this model; with a
      plain assignment, this is what the order of writes gives. */
  lemma RetryRewindsCursor(t: Table, w1: Workunit, w2: Workunit, m1: MessageId, m2: MessageId)
    requires w1.playlist == w2.playlist && w1.channel == w2.channel
    requires Key(w1.playlist, w1.channel) in t
    requires Sendable(w1) && Sendable(w2)
    requires FourDigitYear(w1.video.publishedAt) && FourDigitYear(w2.video.publishedAt)
    requires Seconds(w1.video.publishedAt) < Seconds(w2.video.publishedAt)
    ensures var tr := Dispatched([w1, w2], [Effects(Ok(Allow), Ok(m1), false, false), Effects(Ok(Allow), Ok(m2), true, true)]);
      var writes := BatchWrites(tr, Resync(tr.queue, [true]));
      tr.ds == [Queued(m1), Written(Some(m2))]
      && writes == [WriteOf(w2), WriteOf(w1)]
      && Due(ApplyWrites(t, writes), w2.playlist, w2.channel, w2.video.publishedAt)
  {
    FirstQueued(w1, w2, m1, m2);
    var writes := RetryWrites(WriteOf(w2), w1);
    SecondWriteDecides(t, WriteOf(w2), WriteOf(w1));
    DueIffCursorEarlier(ApplyWrites(t, writes), w2.playlist, w2.channel, w1.video.publishedAt, w2.video.publishedAt);
  }

  /** The writes of a batch that wrote `first` in its loop and then retried
      `w` once, successfully. */
  lemma RetryWrites(first: CursorWrite, w: Workunit) returns (writes: seq<CursorWrite>)
    ensures writes == BatchWrites(Trace([Queued(0), Written(None)], [w], [first]), Resync([w], [true]))
    ensures writes == [first, WriteOf(w)]
  {
    var r := RetryOnce(w);
    writes := BatchWrites(Trace([Queued(0), Written(None)], [w], [first]), r);
    assert writes == [first] + [WriteOf(w)];
  }

  lemma RetryOnce(w: Workunit) returns (r: Resynced)
    ensures r == Resync([w], [true])
    ensures r.written == [w] && r.pending == []
  {
    r := Resync([w], [true]);
    assert [w][1..] == [] && [true][1..] == [];
  }
}

=== FILE: workunits.dfy ===
/** The data of `src/update_loop.rs` and the pure parts of its pipeline: the
    filter decision at the head of `Workunit::send_message`, the workunit
    builder of `process_playlists` with its `first_index`, and the index remap
    of `assign_workunit_extras`. */
module Workunits {

  import opened Outcomes
  import opened Timestamp
  import opened SubscriptionStore

  datatype Video = Video(id: string, publishedAt: DateTime)

  /** `LiveStreamDetails`; how it is derived from the YouTube answer is not
      part of this model. */
  datatype LiveState = Upcoming | Live | Vod | Uploaded | Nonsense

  /** The part of `VideoExtras` the pipeline decides on. Titles, category and
      time string only feed the message text. */
  datatype Extras = Extras(liveState: LiveState, isShort: bool, isScheduled: bool)

  /** The per-subscription filters returned by `get_filters`. */
  datatype Filters = Filters(shortsAllowed: bool, liveAllowed: bool, vodAllowed: bool)

  /** A pending notification before the extras are known: a position in the
      oldest-first video list and a channel. */
  datatype IndexWorkunit = IndexWorkunit(playlist: PlaylistId, index: nat, channel: ChannelId)

  datatype Workunit = Workunit(playlist: PlaylistId, video: Video, extras: Extras, channel: ChannelId)

  /** The answer of `get_channels_to_send` for one video. A failure of the
      query itself panics in `unwrap` (src/db.rs:59), so `Err` stands for a
      returned row whose `channel_id` column fails to decode (src/db.rs:61). */
  type ChannelQuery = Result<seq<ChannelId>>

  // ---------------------------------------------------------------------------
  // Filter gate
  // ---------------------------------------------------------------------------

  /** What a subscription accepts, kind by kind: a short needs shorts to be
      allowed; a live stream or a VOD needs its kind to be allowed unless it
      was scheduled; upcoming streams and plain uploads always pass. */
  predicate KindAllowed(x: Extras, f: Filters) {
    match x.liveState
    case Live => f.liveAllowed || x.isScheduled
    case Vod => f.vodAllowed || x.isScheduled
    case _ => true
  }

  predicate Eligible(x: Extras, f: Filters) {
    (!x.isShort || f.shortsAllowed) && KindAllowed(x, f)
  }

  /** The suppression test of `send_message`, checked after `get_filters`. */
  function Suppressed(x: Extras, f: Filters): (r: bool)
    ensures r <==> !Eligible(x, f)
    ensures x.liveState == Upcoming || x.liveState == Uploaded ==> (r <==> x.isShort && !f.shortsAllowed)
  {
    (x.isShort && !f.shortsAllowed)
    || (x.liveState == Live && !f.liveAllowed && !x.isScheduled)
    || (x.liveState == Vod && !f.vodAllowed && !x.isScheduled)
  }

  /** Scheduled live streams and VODs pass their kind filter; only the shorts
      filter can stop them. */
  lemma ScheduledPassesKindFilter(x: Extras, f: Filters)
    requires x.isScheduled
    ensures Suppressed(x, f) <==> x.isShort && !f.shortsAllowed
  {
  }

  // ---------------------------------------------------------------------------
  // Workunit builder
  // ---------------------------------------------------------------------------

  /** A query that succeeded and found nobody behind on the video. */
  predicate NoChannels(q: ChannelQuery) {
    q.Ok? && |q.value| == 0
  }

  /** Length of the longest prefix of the oldest-first queries that succeeded
      with no channel: the final `first_index`. */
  function LeadingSkips(qs: seq<ChannelQuery>): (n: nat)
    ensures n <= |qs|
    ensures forall j :: 0 <= j < n ==> NoChannels(qs[j])
    ensures n < |qs| ==> !NoChannels(qs[n])
    decreases |qs|
  {
    if |qs| == 0 || !NoChannels(qs[0]) then 0 else 1 + LeadingSkips(qs[1..])
  }

  /** The workunits of one video, in the order the store listed the channels;
      a failed query contributes none. */
  function UnitsAt(p: PlaylistId, i: nat, q: ChannelQuery): (r: seq<IndexWorkunit>)
    ensures q.Err? ==> r == []
    ensures q.Ok? ==> |r| == |q.value|
    ensures q.Ok? ==> forall k {:trigger r[k]} :: 0 <= k < |r| ==> r[k] == IndexWorkunit(p, i, q.value[k])
  {
    if q.Err? then []
    else seq(|q.value|, k requires 0 <= k < |q.value| => IndexWorkunit(p, i, q.value[k]))
  }

  /** The workunits of the first `|qs|` oldest-first videos, video by video. */
  function Pending(p: PlaylistId, qs: seq<ChannelQuery>): (r: seq<IndexWorkunit>)
    ensures forall iw {:trigger iw in r} :: iw in r <==>
      iw.playlist == p && iw.index < |qs| && qs[iw.index].Ok? && iw.channel in qs[iw.index].value
    decreases |qs|
  {
    if |qs| == 0 then []
    else
      var last := |qs| - 1;
      var r := Pending(p, qs[..last]) + UnitsAt(p, last, qs[last]);
      assert forall iw: IndexWorkunit {:trigger iw in UnitsAt(p, last, qs[last])} :: iw in UnitsAt(p, last, qs[last]) <==>
        iw.playlist == p && iw.index == last && qs[last].Ok? && iw.channel in qs[last].value by {
        forall iw: IndexWorkunit | iw.playlist == p && iw.index == last && qs[last].Ok? && iw.channel in qs[last].value
          ensures iw in UnitsAt(p, last, qs[last])
        {
          var k :| 0 <= k < |qs[last].value| && qs[last].value[k] == iw.channel;
          assert UnitsAt(p, last, qs[last])[k] == iw;
        }
      }
      r
  }

  lemma {:induction false} LeadingSkipsSnoc(qs: seq<ChannelQuery>, q: ChannelQuery)
    ensures LeadingSkips(qs + [q])
         == if LeadingSkips(qs) == |qs| && NoChannels(q) then |qs| + 1 else LeadingSkips(qs)
    decreases |qs|
  {
    if |qs| == 0 {
      assert qs + [q] == [q];
      assert [q][1..] == [];
    } else {
      assert (qs + [q])[0] == qs[0];
      assert (qs + [q])[1..] == qs[1..] + [q];
      LeadingSkipsSnoc(qs[1..], q);
    }
  }

  lemma PendingSnoc(p: PlaylistId, qs: seq<ChannelQuery>, q: ChannelQuery)
    ensures Pending(p, qs + [q]) == Pending(p, qs) + UnitsAt(p, |qs|, q)
  {
    assert (qs + [q])[..|qs|] == qs;
  }

  /** `process_playlists`, lines 109-139: walks the oldest-first videos with
      their channel queries, moves `first_index` past a leading run of videos
      nobody is behind on, and collects one workunit per (video, channel). */
  method BuildIndexWorkunits(p: PlaylistId, qs: seq<ChannelQuery>) returns (firstIndex: nat, iws: seq<IndexWorkunit>)
    ensures firstIndex == LeadingSkips(qs)
    ensures iws == Pending(p, qs)
  {
    firstIndex := 0;
    iws := [];
    var i := 0;
    while i < |qs|
      invariant i <= |qs|
      invariant firstIndex == LeadingSkips(qs[..i])
      invariant iws == Pending(p, qs[..i])
    {
      Step(p, qs, i);
      if qs[i].Ok? {
        var channels := qs[i].value;
        if |channels| == 0 {
          if firstIndex == i {
            firstIndex := i + 1;
          }
        } else {
          iws := PushUnits(iws, p, i, channels);
        }
      }
      i := i + 1;
    }
    assert qs[..i] == qs;
  }

  lemma Step(p: PlaylistId, qs: seq<ChannelQuery>, i: nat)
    requires i < |qs|
    ensures LeadingSkips(qs[..i + 1])
         == if LeadingSkips(qs[..i]) == i && NoChannels(qs[i]) then i + 1 else LeadingSkips(qs[..i])
    ensures Pending(p, qs[..i + 1]) == Pending(p, qs[..i]) + UnitsAt(p, i, qs[i])
  {
    assert qs[..i + 1] == qs[..i] + [qs[i]];
    LeadingSkipsSnoc(qs[..i], qs[i]);
    PendingSnoc(p, qs[..i], qs[i]);
  }

  /** The inner loop of lines 131-137: one workunit per channel, in order. */
  method PushUnits(iws: seq<IndexWorkunit>, p: PlaylistId, i: nat, channels: seq<ChannelId>) returns (r: seq<IndexWorkunit>)
    ensures r == iws + UnitsAt(p, i, Ok(channels))
  {
    r := iws;
    var k := 0;
    while k < |channels|
      invariant k <= |channels|
      invariant r == iws + UnitsAt(p, i, Ok(channels))[..k]
    {
      assert UnitsAt(p, i, Ok(channels))[..k + 1] == UnitsAt(p, i, Ok(channels))[..k] + [IndexWorkunit(p, i, channels[k])];
      r := r + [IndexWorkunit(p, i, channels[k])];
      k := k + 1;
    }
    assert UnitsAt(p, i, Ok(channels))[..k] == UnitsAt(p, i, Ok(channels));
  }

  /** The channels listed for video `i`, in workunit order. */
  function ChannelsOf(iws: seq<IndexWorkunit>, i: nat): seq<ChannelId>
    decreases |iws|
  {
    if |iws| == 0 then []
    else (if iws[0].index == i then [iws[0].channel] else []) + ChannelsOf(iws[1..], i)
  }

  lemma {:induction false} ChannelsOfConcat(a: seq<IndexWorkunit>, b: seq<IndexWorkunit>, i: nat)
    ensures ChannelsOf(a + b, i) == ChannelsOf(a, i) + ChannelsOf(b, i)
    decreases |a|
  {
    if |a| == 0 {
      assert a + b == b;
    } else {
      assert (a + b)[1..] == a[1..] + b;
      ChannelsOfConcat(a[1..], b, i);
    }
  }

  lemma {:induction false} ChannelsOfUnits(p: PlaylistId, j: nat, cs: seq<ChannelId>, i: nat)
    ensures ChannelsOf(UnitsAt(p, j, Ok(cs)), i) == if i == j then cs else []
    decreases |cs|
  {
    var units := UnitsAt(p, j, Ok(cs));
    if |cs| > 0 {
      assert units[1..] == UnitsAt(p, j, Ok(cs[1..]));
      ChannelsOfUnits(p, j, cs[1..], i);
      if i == j {
        assert cs == [cs[0]] + cs[1..];
      }
    }
  }

  /** Within one video the workunits follow the store's channel order, and a
      failed query leaves the video without workunits. */
  lemma {:induction false} PendingChannels(p: PlaylistId, qs: seq<ChannelQuery>, i: nat)
    requires i < |qs|
    ensures ChannelsOf(Pending(p, qs), i) == if qs[i].Ok? then qs[i].value else []
    decreases |qs|
  {
    var last := |qs| - 1;
    assert qs == qs[..last] + [qs[last]];
    PendingSnoc(p, qs[..last], qs[last]);
    ChannelsOfConcat(Pending(p, qs[..last]), UnitsAt(p, last, qs[last]), i);
    if i < last {
      PendingChannels(p, qs[..last], i);
    } else {
      PendingBelow(p, qs[..last], i);
    }
    if qs[last].Ok? {
      ChannelsOfUnits(p, last, qs[last].value, i);
    }
  }

  lemma {:induction false} ChannelsOfAbsent(iws: seq<IndexWorkunit>, i: nat)
    requires forall k :: 0 <= k < |iws| ==> iws[k].index != i
    ensures ChannelsOf(iws, i) == []
    decreases |iws|
  {
    if |iws| > 0 {
      ChannelsOfAbsent(iws[1..], i);
    }
  }

  lemma PendingBelow(p: PlaylistId, qs: seq<ChannelQuery>, i: nat)
    requires i >= |qs|
    ensures ChannelsOf(Pending(p, qs), i) == []
  {
    var r := Pending(p, qs);
    forall k | 0 <= k < |r|
      ensures r[k].index != i
    {
      assert r[k] in r;
    }
    ChannelsOfAbsent(r, i);
  }

  predicate IndexOrdered(iws: seq<IndexWorkunit>) {
    forall a, b :: 0 <= a < b < |iws| ==> iws[a].index <= iws[b].index
  }

  lemma OrderedConcat(front: seq<IndexWorkunit>, units: seq<IndexWorkunit>, i: nat)
    requires IndexOrdered(front)
    requires forall k :: 0 <= k < |front| ==> front[k].index < i
    requires forall k :: 0 <= k < |units| ==> units[k].index == i
    ensures IndexOrdered(front + units)
  {
    var r := front + units;
    forall a, b | 0 <= a < b < |r|
      ensures r[a].index <= r[b].index
    {
      if b >= |front| {
        assert r[b] == units[b - |front|];
        if a >= |front| {
          assert r[a] == units[a - |front|];
        }
      }
    }
  }

  lemma PendingIndicesBelow(p: PlaylistId, qs: seq<ChannelQuery>)
    ensures forall k :: 0 <= k < |Pending(p, qs)| ==> Pending(p, qs)[k].index < |qs|
  {
    var r := Pending(p, qs);
    forall k | 0 <= k < |r|
      ensures r[k].index < |qs|
    {
      assert r[k] in r;
    }
  }

  /** Workunits come in oldest-first video order. */
  lemma {:induction false} PendingOrdered(p: PlaylistId, qs: seq<ChannelQuery>)
    ensures IndexOrdered(Pending(p, qs))
    decreases |qs|
  {
    if |qs| > 0 {
      var last := |qs| - 1;
      PendingOrdered(p, qs[..last]);
      PendingIndicesBelow(p, qs[..last]);
      OrderedConcat(Pending(p, qs[..last]), UnitsAt(p, last, qs[last]), last);
    }
  }

  /** Every workunit's index lies at or past `first_index` and inside the
      video list, so `iw.index - first_index` neither underflows nor leaves
      the slice. */
  lemma IndicesInSlice(p: PlaylistId, qs: seq<ChannelQuery>)
    ensures forall k :: 0 <= k < |Pending(p, qs)| ==>
      LeadingSkips(qs) <= Pending(p, qs)[k].index < |qs|
  {
    var r := Pending(p, qs);
    forall k | 0 <= k < |r|
      ensures LeadingSkips(qs) <= r[k].index < |qs|
    {
      assert r[k] in r;
    }
  }

  /** An empty slice means there is nothing to send. */
  lemma EmptySliceNoWork(p: PlaylistId, qs: seq<ChannelQuery>)
    requires LeadingSkips(qs) == |qs|
    ensures Pending(p, qs) == []
  {
    IndicesInSlice(p, qs);
  }

  /** A failed channel query costs that video its workunits and nothing else:
      the video stays in the slice, and every other video keeps the channels
      its own query returned. */
  lemma FailedQuerySkipsOnlyItsVideo(p: PlaylistId, qs: seq<ChannelQuery>, i: nat)
    requires i < |qs| && qs[i].Err?
    ensures ChannelsOf(Pending(p, qs), i) == []
    ensures LeadingSkips(qs) <= i
    ensures forall j :: 0 <= j < |qs| && j != i && qs[j].Ok? ==> ChannelsOf(Pending(p, qs), j) == qs[j].value
  {
    PendingChannels(p, qs, i);
    forall j | 0 <= j < |qs| && j != i && qs[j].Ok?
      ensures ChannelsOf(Pending(p, qs), j) == qs[j].value
    {
      PendingChannels(p, qs, j);
    }
  }

  // ---------------------------------------------------------------------------
  // Index remap
  // ---------------------------------------------------------------------------

  /** `ws` is `iws` with each index resolved: workunit k carries the video at
      its index and the extras at its position in the slice that starts at
      `firstIndex`. */
  predicate Remapped(ws: seq<Workunit>, videos: seq<Video>, firstIndex: nat, extras: seq<Extras>, iws: seq<IndexWorkunit>) {
    |ws| == |iws|
    && forall k :: 0 <= k < |ws| ==>
      firstIndex <= iws[k].index < |videos| && iws[k].index - firstIndex < |extras|
      && ws[k].video == videos[iws[k].index]
      && ws[k].extras == extras[iws[k].index - firstIndex]
      && ws[k].playlist == iws[k].playlist && ws[k].channel == iws[k].channel
  }

  /** `assign_workunit_extras`, lines 171-182: each workunit takes the video and
      the extras at `index - first_index` of the slice. The remapped position
      is the very video the builder indexed, with its own extras. */
  function Assign(videos: seq<Video>, firstIndex: nat, extras: seq<Extras>, iws: seq<IndexWorkunit>): (ws: seq<Workunit>)
    requires firstIndex <= |videos| && |extras| == |videos| - firstIndex
    requires forall k :: 0 <= k < |iws| ==> firstIndex <= iws[k].index < |videos|
    ensures |ws| == |iws|
    ensures Remapped(ws, videos, firstIndex, extras, iws)
  {
    var slice := videos[firstIndex..];
    seq(|iws|, k requires 0 <= k < |iws| =>
      var index := iws[k].index - firstIndex;
      Workunit(iws[k].playlist, slice[index], extras[index], iws[k].channel))
  }
}
